=== FILE: README.md ===
# Testably.Abstractions assertion core in Dafny

This project models two pieces of the Testably.Abstractions assertion
extensions for FluentAssertions and AwesomeAssertions, and proves properties
of them.

- **Wildcard matching** (`Match.Wildcard`). A pattern in which `*` stands for
  any run of characters and `?` for exactly one character (one Unicode scalar
  value here; one UTF-16 code unit in .NET) is matched against a whole string.
  - The source builds this by turning the pattern into an anchored .NET regular
    expression. `WildcardMatch.GlobMatch` and `WildcardMatch.AnchoredMatch`
    state what that expression accepts.
  - `.` does not consume a line feed.
  - `$` also matches just before one trailing line feed.
  - The optional case-insensitive mode is included.
  - An independent chunk-by-chunk reference semantics is proved equivalent to
    the recursive matcher.
- **Statistics assertions.** A mock file system records every method call and
  property access. The assertions work in three steps:
  - `HaveCalled` / `HaveAccessed` select the records with a given name.
  - `WithParameterAt` and its first/second/third and by-value forms narrow the
    method records by one parameter.
  - A terminal such as `AtLeast`, `Never` or `Exactly` compares the number of
    retained records with an expectation. It passes, or it fails with either
    the null-subject message or a message that names the statistic, the
    expectation, the caller's reason and the actual count written as a count
    phrase ("never", "once", "twice", "n times").

Modules:

- `Wrappers`: `Option`, which stands for a C# nullable value.
- `Selection`: LINQ `Where` as `Filter`, with its order, multiplicity and
  composition laws.
- `WildcardMatch`: `Match.cs`.
- `Statistics`: the recorded method and property statistics.
- `StatisticAssertionsCount`: the shared terminals, the count phrases and the
  failure messages.
- `StatisticMethodAssertions`: the method-call assertion state and its
  narrowings.
- `StatisticPropertyAssertions`: the property-access assertion state (the
  FluentAssertions flavour).
- `AwesomeStatisticAssertions`: the AwesomeAssertions entry points
  `HaveCalled` / `HaveAccessed` and the AwesomeAssertions property-assertion
  constructors.

Each assertion object is an immutable value in the source: every narrowing
builds a new object, and a terminal returns a constraint without changing the
object. The model therefore uses datatypes and functions throughout.

## Model

| member | source | states |
|---|---|---|
| WildcardMatch.Wildcard | Source/Testably.Abstractions.FluentAssertions/Match.cs:37-38 | the created matcher reports the pattern as written through `ToString` and keeps the case flag |
| WildcardMatch.FromString | Source/Testably.Abstractions.FluentAssertions/Match.cs:25 | a null pattern becomes the empty, case-sensitive pattern; any other string becomes a case-sensitive pattern |
| WildcardMatch.GlobMatch | Source/Testably.Abstractions.FluentAssertions/Match.cs:74-80 | the whole-value language of the escaped pattern: empty pattern only the empty value, `*` a line-feed-free run, `?` one non-line-feed character, any other character itself; characterised by `GlobMatchSound` and `GlobMatchComplete` |
| WildcardMatch.AnchoredMatch | Source/Testably.Abstractions.FluentAssertions/Match.cs:79 | `^…$`: the value matches as a whole, or all of it but one trailing line feed does; characterised by `LiteralWildcardMatches` and `StarWildcardMatches` |
| WildcardMatch.LiteralMatches | Source/Testably.Abstractions.FluentAssertions/Match.cs:61-64 | case-sensitively a literal matches only the same character; ignoring case, a literal matches exactly the characters with the same case fold |
| WildcardMatch.Match.ToString | Source/Testably.Abstractions.FluentAssertions/Match.cs:67-69 | the pattern as written, not the translated expression; see `Wildcard` |
| WildcardMatch.Match.Matches | Source/Testably.Abstractions.FluentAssertions/Match.cs:54-65 | a match is only ever reported for a non-null value |
| WildcardMatch.NullNeverMatches | Source/Testably.Abstractions.FluentAssertions/Match.cs:56-59 | `null` is rejected by every pattern, `*` included |
| WildcardMatch.FoldCase | Source/Testably.Abstractions.FluentAssertions/Match.cs:61-63 | the fold is never an upper-case ASCII letter: an upper-case letter becomes the lower-case letter at the same place in the alphabet, and every other character is left alone |
| WildcardMatch.GlobMatchSound | Source/Testably.Abstractions.FluentAssertions/Match.cs:74-80 | every value the translated expression accepts splits into one chunk per pattern character: `*` takes a line-feed-free run, `?` one non-line-feed character, a literal one equal (or case-fold-equal) character |
| WildcardMatch.SplitMatch | Source/Testably.Abstractions.FluentAssertions/Match.cs:74-80 | the chunk split of an accepted value, given explicitly |
| WildcardMatch.GlobMatchComplete | Source/Testably.Abstractions.FluentAssertions/Match.cs:74-80 | conversely, every value that splits into admitted chunks is accepted |
| WildcardMatch.StarConsumes | Source/Testably.Abstractions.FluentAssertions/Match.cs:78 | a `*` followed by a pattern accepts any line-feed-free run followed by a value the rest accepts |
| WildcardMatch.LiteralPatternMatchesOnlyItself | Source/Testably.Abstractions.FluentAssertions/Match.cs:76 | a pattern without `*` and `?` matches, case-sensitively, exactly itself: escaping makes every metacharacter literal |
| WildcardMatch.LiteralPatternIgnoringCase | Source/Testably.Abstractions.FluentAssertions/Match.cs:61-64 | ignoring case, a pattern without `*` and `?` describes (as the whole-value language `GlobMatch`, before the `$` anchor) exactly the values with its length and, position by position, its case folds (`SameFolds`) |
| WildcardMatch.LiteralWildcardMatches | Source/Testably.Abstractions.FluentAssertions/Match.cs:74-80 | a wildcard-free pattern matches a value if and only if the value is the pattern, or the pattern followed by one line feed (the `$` anchor) |
| WildcardMatch.LiteralWildcardMatchesIgnoringCase | Source/Testably.Abstractions.FluentAssertions/Match.cs:61-64 | through `Matches` with ignore-case, a wildcard-free pattern accepts exactly the values with its case folds, alone or followed by one line feed (the `$` anchor) |
| WildcardMatch.StarFreeMatchHasPatternLength | Source/Testably.Abstractions.FluentAssertions/Match.cs:77 | without `*`, an accepted value is exactly as long as the pattern: `?` consumes one character |
| WildcardMatch.StarMatchesLineFeedFree | Source/Testably.Abstractions.FluentAssertions/Match.cs:78 | `*` on its own accepts exactly the values without a line feed |
| WildcardMatch.StarWildcardMatches | Source/Testably.Abstractions.FluentAssertions/Match.cs:74-80 | the pattern `*` matches exactly the values without a line feed, or whose only line feed is the last character |
| WildcardMatch.IgnoreCaseWidens | Source/Testably.Abstractions.FluentAssertions/Match.cs:61-63 | everything matched case-sensitively is also matched when ignoring case |
| WildcardMatch.IgnoreCaseExample | Tests/Testably.Abstractions.FluentAssertions.Tests/MatchTests.cs:50-63 | `foo` rejects `FOO` case-sensitively and accepts it when ignoring case |
| WildcardMatch.NullConversionExample | Tests/Testably.Abstractions.FluentAssertions.Tests/MatchTests.cs:8-18 | the converted null pattern matches "" and not " ", and prints as "" |
| WildcardMatch.LiteralExamples | Tests/Testably.Abstractions.FluentAssertions.Tests/MatchTests.cs:32-34 | `Foo` matches `Foo` and rejects `xFoo` and `xFoo.Bar` |
| WildcardMatch.QuestionMarkExamples | Tests/Testably.Abstractions.FluentAssertions.Tests/MatchTests.cs:35-36 | `Foo?Bar` matches `Foo.Bar`; `Foo?r` does not |
| WildcardMatch.StarExamples | Tests/Testably.Abstractions.FluentAssertions.Tests/MatchTests.cs:31-38 | `*`, `Foo*` and `Foo*r` match `Foo.Bar` |
| WildcardMatch.MetacharacterExamples | Source/Testably.Abstractions.FluentAssertions/Match.cs:76 | escaped `.`, `$`, `\`, `(`, `^` match only themselves |
| Selection.Filter | Source/Testably.Abstractions.AwesomeAssertions/StatisticAssertions.cs:50 | `Where` keeps exactly the elements the predicate accepts, and never adds any |
| Selection.FilterSelectsInOrder | Source/Testably.Abstractions.AwesomeAssertions/StatisticAssertions.cs:50 | `Where` keeps source order (a subsequence) and keeps every accepted element with its full multiplicity |
| Selection.FilterTwice | Source/Testably.Abstractions.FluentAssertions/StatisticMethodAssertions.cs:80-81 | two chained `Where`s equal one `Where` on the conjunction |
| Selection.FilterAppend | Source/Testably.Abstractions.FluentAssertions/StatisticMethodAssertions.cs:81 | `Where` distributes over concatenation |
| Selection.FilterCommutes | Source/Testably.Abstractions.FluentAssertions/StatisticMethodAssertions.cs:80-81 | the order of two chained `Where`s does not matter |
| StatisticAssertionsCount.CountToString | Source/Testably.Abstractions.FluentAssertions/StatisticAssertionsCount.cs:234-241 | 0, 1, 2 read "never", "once", "twice", any other count "<n> times"; its inverse is `ParseCountPhrase` (`CountPhraseRoundTrip`) |
| StatisticAssertionsCount.IntToDecimal | Source/Testably.Abstractions.FluentAssertions/StatisticAssertionsCount.cs:240 | the decimal text is never empty and starts with '-' exactly for negative counts; it reads back by `IntToDecimalRoundTrip` |
| StatisticAssertionsCount.NatToDecimal | Source/Testably.Abstractions.FluentAssertions/StatisticAssertionsCount.cs:240 | the decimal text of a natural number is non-empty, starts with a digit and has no leading zero (so 42 is "42", not "042"); it reads back by `NatToDecimalRoundTrip` |
| StatisticAssertionsCount.FailureMessage | Source/Testably.Abstractions.FluentAssertions/StatisticAssertionsCount.cs:44 | the shared message shape "Expected <type> `<name>` to <expectation><reason>, but it was <count phrase>." used at lines 44, 64, 84, 104, 124, 144, 164, 184, 204 and 224; `FailureMessageDeterminesCount` shows it keeps the count |
| StatisticAssertionsCount.StatisticKind.TypeName | Source/Testably.Abstractions.FluentAssertions/StatisticMethodAssertions.cs:22 | "method" for method statistics, "property" for property statistics (FluentAssertions StatisticPropertyAssertions.cs line 19) |
| StatisticAssertionsCount.StatisticKind.Verb | Source/Testably.Abstractions.FluentAssertions/StatisticMethodAssertions.cs:25 | "called" for methods, "accessed" for properties (FluentAssertions StatisticPropertyAssertions.cs line 22) |
| StatisticAssertionsCount.CountPhraseRoundTrip | Source/Testably.Abstractions.FluentAssertions/StatisticAssertionsCount.cs:234-241 | every count phrase ("never", "once", "twice", "n times", negatives included) reads back as its count |
| StatisticAssertionsCount.CountPhraseInjective | Source/Testably.Abstractions.FluentAssertions/StatisticAssertionsCount.cs:234-241 | different counts give different phrases |
| StatisticAssertionsCount.IntToDecimalRoundTrip | Source/Testably.Abstractions.FluentAssertions/StatisticAssertionsCount.cs:240 | the decimal text of an integer, with a minus sign when negative, reads back as that integer |
| StatisticAssertionsCount.NatToDecimalRoundTrip | Source/Testably.Abstractions.FluentAssertions/StatisticAssertionsCount.cs:240 | the decimal text of a natural number is all digits and has that value |
| StatisticAssertionsCount.Assess | Source/Testably.Abstractions.FluentAssertions/StatisticAssertionsCount.cs:35-44 | the two-step chain passes if and only if the subject is not null and the condition holds; a null subject fails with the fixed null message `NullSubjectMessage` (line 40); otherwise the failure carries the count message |
| StatisticAssertionsCount.AtLeast | Source/Testably.Abstractions.FluentAssertions/StatisticAssertionsCount.cs:32-47 | passes if and only if the subject is not null and count >= n; null gives the null message; otherwise "… to be called/accessed at least <n> …, but it was <count>." |
| StatisticAssertionsCount.AtLeastOnce | Source/Testably.Abstractions.FluentAssertions/StatisticAssertionsCount.cs:52-67 | passes if and only if the subject is not null and count >= 1; message "… at least once …" |
| StatisticAssertionsCount.AtLeastTwice | Source/Testably.Abstractions.FluentAssertions/StatisticAssertionsCount.cs:72-87 | passes if and only if the subject is not null and count >= 2; message "… at least twice …" |
| StatisticAssertionsCount.AtMost | Source/Testably.Abstractions.FluentAssertions/StatisticAssertionsCount.cs:92-107 | passes if and only if the subject is not null and count <= n; message "… at most <n> …" |
| StatisticAssertionsCount.AtMostOnce | Source/Testably.Abstractions.FluentAssertions/StatisticAssertionsCount.cs:112-127 | passes if and only if the subject is not null and count <= 1; message "… at most once …" |
| StatisticAssertionsCount.AtMostTwice | Source/Testably.Abstractions.FluentAssertions/StatisticAssertionsCount.cs:132-147 | passes if and only if the subject is not null and count <= 2; message "… at most twice …" |
| StatisticAssertionsCount.Exactly | Source/Testably.Abstractions.FluentAssertions/StatisticAssertionsCount.cs:152-167 | passes if and only if the subject is not null and count == n; message "… to be called/accessed <n> …" |
| StatisticAssertionsCount.Never | Source/Testably.Abstractions.FluentAssertions/StatisticAssertionsCount.cs:172-187 | passes if and only if the subject is not null and count == 0; message "… to never be called/accessed …" |
| StatisticAssertionsCount.Once | Source/Testably.Abstractions.FluentAssertions/StatisticAssertionsCount.cs:192-207 | passes if and only if the subject is not null and count == 1; message "… to be called/accessed once …" |
| StatisticAssertionsCount.Twice | Source/Testably.Abstractions.FluentAssertions/StatisticAssertionsCount.cs:212-227 | passes if and only if the subject is not null and count == 2; message "… to be called/accessed twice …" |
| StatisticAssertionsCount.AtLeastShorthandsAgree | Source/Testably.Abstractions.FluentAssertions/StatisticAssertionsCount.cs:52-87 | `AtLeastOnce`/`AtLeastTwice` give the same outcome and message as `AtLeast(1)`/`AtLeast(2)` |
| StatisticAssertionsCount.AtMostShorthandsAgree | Source/Testably.Abstractions.FluentAssertions/StatisticAssertionsCount.cs:112-147 | `AtMostOnce`/`AtMostTwice` give the same outcome and message as `AtMost(1)`/`AtMost(2)` |
| StatisticAssertionsCount.ExactShorthandsAgree | Source/Testably.Abstractions.FluentAssertions/StatisticAssertionsCount.cs:192-227 | `Once`/`Twice` give the same outcome and message as `Exactly(1)`/`Exactly(2)` |
| StatisticAssertionsCount.NeverAgreesWithExactlyZero | Source/Testably.Abstractions.FluentAssertions/StatisticAssertionsCount.cs:172-187 | `Never` passes and fails exactly when `Exactly(0)` does, but its failure message differs ("to never be …" against "to be … never") |
| StatisticAssertionsCount.FailureMessageDeterminesCount | Source/Testably.Abstractions.FluentAssertions/StatisticAssertionsCount.cs:44 | for one statistic and expectation, the failure message determines the actual count |
| StatisticAssertionsCount.BoundsMeetAtExactly | Source/Testably.Abstractions.FluentAssertions/StatisticAssertionsCount.cs:32-167 | on a non-null subject, `AtLeast(n)` and `AtMost(n)` both pass if and only if `Exactly(n)` passes, and at least one of them always passes |
| StatisticAssertionsCount.NeverOnceMessage | Source/Testably.Abstractions.FluentAssertions/StatisticAssertionsCount.cs:172-187 | `Never` on a statistic counted once fails with "… to never be <verb>" + reason + ", but it was once." |
| StatisticAssertionsCount.AtMostFailureMessage | Source/Testably.Abstractions.FluentAssertions/StatisticAssertionsCount.cs:92-107 | `AtMost(n)` on a non-null subject counted more than `n` times fails with "Expected <type> `<name>` to be <verb> at most <n>" + reason + ", but it was <count>." |
| StatisticMethodAssertions.MethodAssertions.GetCount | Source/Testably.Abstractions.FluentAssertions/StatisticMethodAssertions.cs:114-115 | the number of retained call records; `WithParameterAt` shows it never grows under narrowing |
| StatisticMethodAssertions.MethodAssertions.AsCountSubject | Source/Testably.Abstractions.FluentAssertions/StatisticMethodAssertions.cs:22-25 | method statistics are a "method" that is "called", and the terminals count the retained call records (`GetCount`, lines 114-115) |
| StatisticMethodAssertions.NullSubject | Source/Testably.Abstractions.FluentAssertions/StatisticMethodAssertions.cs:31-38 | the null-subject state is flagged null, keeps the name and holds no records |
| StatisticMethodAssertions.Of | Source/Testably.Abstractions.FluentAssertions/StatisticMethodAssertions.cs:40-48 | the non-null state keeps the name and exactly the given records |
| StatisticMethodAssertions.WithParameterAt | Source/Testably.Abstractions.FluentAssertions/StatisticMethodAssertions.cs:78-81 | the narrowed state is not null, keeps the name, keeps exactly the calls whose parameter at `index` satisfies the predicate, in order, and never counts more; on a state with no retained call any index is accepted |
| StatisticMethodAssertions.IndexInRange | Source/Testably.Abstractions.FluentAssertions/StatisticMethodAssertions.cs:81 | `Parameters[index]` is read only for retained calls: with none, any index is accepted; otherwise the index is a valid position of the first retained call's parameters (and, by its definition, of every one) |
| StatisticMethodAssertions.ParameterSatisfies | Source/Testably.Abstractions.FluentAssertions/StatisticMethodAssertions.cs:81 | the `Where` predicate of a narrowing: the call's parameter at `index` satisfies the caller's predicate; `NarrowingKeepsAcceptedCalls` states what it keeps |
| StatisticMethodAssertions.NullAwareEquals | Source/Testably.Abstractions.FluentAssertions/StatisticMethodAssertions.cs:56 | the by-value test holds if and only if both values are null or the parameter equals the expected value |
| StatisticMethodAssertions.WithParameterValueAt | Source/Testably.Abstractions.FluentAssertions/StatisticMethodAssertions.cs:69-72 | keeps exactly the calls whose parameter at `index` equals the value (null-aware), in order |
| StatisticMethodAssertions.WithFirstParameter | Source/Testably.Abstractions.FluentAssertions/StatisticMethodAssertions.cs:61-63 | keeps exactly the calls whose first parameter satisfies the predicate |
| StatisticMethodAssertions.WithSecondParameter | Source/Testably.Abstractions.FluentAssertions/StatisticMethodAssertions.cs:94-96 | keeps exactly the calls whose second parameter satisfies the predicate |
| StatisticMethodAssertions.WithThirdParameter | Source/Testably.Abstractions.FluentAssertions/StatisticMethodAssertions.cs:109-111 | keeps exactly the calls whose third parameter satisfies the predicate |
| StatisticMethodAssertions.WithFirstParameterValue | Source/Testably.Abstractions.FluentAssertions/StatisticMethodAssertions.cs:53-56 | keeps exactly the calls whose first parameter equals the value |
| StatisticMethodAssertions.WithSecondParameterValue | Source/Testably.Abstractions.FluentAssertions/StatisticMethodAssertions.cs:86-89 | keeps exactly the calls whose second parameter equals the value |
| StatisticMethodAssertions.WithThirdParameterValue | Source/Testably.Abstractions.FluentAssertions/StatisticMethodAssertions.cs:101-104 | keeps exactly the calls whose third parameter equals the value |
| StatisticMethodAssertions.NarrowingKeepsAcceptedCalls | Source/Testably.Abstractions.FluentAssertions/StatisticMethodAssertions.cs:78-81 | each accepted call stays as often as it was recorded; each rejected call disappears |
| StatisticMethodAssertions.NarrowingTwiceIsConjunction | Source/Testably.Abstractions.FluentAssertions/StatisticMethodAssertions.cs:78-81 | narrowing the same parameter twice equals one narrowing by both predicates |
| StatisticMethodAssertions.NarrowingsCommute | Source/Testably.Abstractions.FluentAssertions/StatisticMethodAssertions.cs:78-81 | narrowings on two parameters can be applied in either order |
| StatisticMethodAssertions.NarrowingNullSubjectClearsFlag | Source/Testably.Abstractions.FluentAssertions/StatisticMethodAssertions.cs:78-81 | as written, narrowing a null-subject state yields a non-null state, so `Never` passes where it failed with the null message before |
| StatisticMethodAssertions.WithParameterAtKeepingNull | Source/Testably.Abstractions.FluentAssertions/StatisticMethodAssertions.cs:78-81 | the corrected narrowing keeps the null flag and otherwise equals `WithParameterAt` |
| StatisticMethodAssertions.KeepingNullStillFails | Source/Testably.Abstractions.FluentAssertions/StatisticMethodAssertions.cs:78-81 | after the corrected narrowing of a null subject, all ten terminals (`AtLeast`, `AtLeastOnce`, `AtLeastTwice`, `AtMost`, `AtMostOnce`, `AtMostTwice`, `Exactly`, `Never`, `Once`, `Twice`, any threshold) fail with the null message |
| StatisticMethodAssertions.WriteAllTextCounts | Tests/Testably.Abstractions.FluentAssertions.Tests/StatisticMethodAssertionsTests.cs:76-108 | one `WriteAllText("foo", "bar")` call counts once under first parameter "foo" and second parameter "bar", and zero times under first parameter "bar" |
| StatisticMethodAssertions.WriteAllTextNeverFails | Tests/Testably.Abstractions.FluentAssertions.Tests/StatisticMethodAssertionsTests.cs:76-96 | `Never` after one matching call fails with "Expected method `WriteAllText` to never be called" + reason + ", but it was once." |
| StatisticMethodAssertions.WriteAllTextNeverPasses | Tests/Testably.Abstractions.FluentAssertions.Tests/StatisticMethodAssertionsTests.cs:98-108 | `Never` passes when no call is retained |
| StatisticPropertyAssertions.PropertyAssertions.GetCount | Source/Testably.Abstractions.FluentAssertions/StatisticPropertyAssertions.cs:44-45 | the number of retained access records |
| StatisticPropertyAssertions.PropertyAssertions.AsCountSubject | Source/Testably.Abstractions.FluentAssertions/StatisticPropertyAssertions.cs:19-22 | property statistics are a "property" that is "accessed", counted by retained access records (`GetCount`, lines 44-45) |
| StatisticPropertyAssertions.NullSubject | Source/Testably.Abstractions.FluentAssertions/StatisticPropertyAssertions.cs:26-32 | the null-subject state is flagged null, keeps the name, holds no records |
| StatisticPropertyAssertions.Of | Source/Testably.Abstractions.FluentAssertions/StatisticPropertyAssertions.cs:34-41 | the non-null state keeps the name and exactly the given records |
| StatisticPropertyAssertions.NullSubjectFailsEveryTerminal | Source/Testably.Abstractions.FluentAssertions/StatisticPropertyAssertions.cs:26-32 | every terminal on a null property subject fails with the null message, whatever the expected count |
| AwesomeStatisticAssertions.NullPropertySubject | Source/Testably.Abstractions.AwesomeAssertions/StatisticPropertyAssertions.cs:29-35 | the AwesomeAssertions null-subject state is flagged null and counts zero |
| AwesomeStatisticAssertions.PropertiesOf | Source/Testably.Abstractions.AwesomeAssertions/StatisticPropertyAssertions.cs:37-44 | the AwesomeAssertions non-null state keeps the given records, and is a "property" that is "accessed" (lines 22-25) |
| AwesomeStatisticAssertions.NamedMethod | Source/Testably.Abstractions.AwesomeAssertions/StatisticAssertions.cs:50 | the `Where` predicate of `HaveCalled`: the record's name is the method name; `HaveCalledSelectsByName` states what it keeps |
| AwesomeStatisticAssertions.NamedProperty | Source/Testably.Abstractions.AwesomeAssertions/StatisticAssertions.cs:34 | the `Where` predicate of `HaveAccessed`: the record's name is the property name; `HaveAccessedSelectsByName` states what it keeps |
| AwesomeStatisticAssertions.HaveCalled | Source/Testably.Abstractions.AwesomeAssertions/StatisticAssertions.cs:41-51 | null statistics give the null-subject state; otherwise exactly the calls with that method name, never more than recorded |
| AwesomeStatisticAssertions.HaveAccessed | Source/Testably.Abstractions.AwesomeAssertions/StatisticAssertions.cs:24-35 | null statistics give the null-subject state; otherwise exactly the accesses with that property name, never more than recorded |
| AwesomeStatisticAssertions.HaveCalledSelectsByName | Source/Testably.Abstractions.AwesomeAssertions/StatisticAssertions.cs:49-50 | the selected calls keep recording order, and each call with the name keeps its full multiplicity |
| AwesomeStatisticAssertions.HaveAccessedSelectsByName | Source/Testably.Abstractions.AwesomeAssertions/StatisticAssertions.cs:33-34 | the selected accesses keep recording order, and each access with the name keeps its full multiplicity |
| AwesomeStatisticAssertions.NullStatisticsAlwaysFail | Source/Testably.Abstractions.AwesomeAssertions/StatisticAssertions.cs:27-31 | with null statistics, all ten terminals after `HaveCalled` or `HaveAccessed` fail with the null message, at any threshold (so `Never()` and `AtLeast(0)` too) |
| AwesomeStatisticAssertions.DirectorySeparatorCharExample | Tests/Testably.Abstractions.AwesomeAssertions.Tests/StatisticPropertyAssertionsTests.cs:15-31 | one access of `DirectorySeparatorChar` makes `Never` fail with "Expected property `DirectorySeparatorChar` to never be accessed" + reason + ", but it was once." |
| AwesomeStatisticAssertions.ThreeWritesCount | Tests/Testably.Abstractions.FluentAssertions.Tests/StatisticAssertionsCountTests.cs:13-38 | three `WriteAllText` calls count three; the test writes three paths `foo-{i}`, while this fixture is a variation of its own that adds a `ReadAllText` call between the writes and a property access, and proves that neither is counted |
| AwesomeStatisticAssertions.ThreeWritesExample | Source/Testably.Abstractions.FluentAssertions/StatisticAssertionsCount.cs:92-107 | with three calls, `Exactly(3)` passes and `AtMost(2)` fails with "… to be called at most twice" + reason + ", but it was 3 times." |
| AwesomeStatisticAssertions.AtMostTwiceThreeMessage | Source/Testably.Abstractions.FluentAssertions/StatisticAssertionsCount.cs:104 | the full text of that message, with "twice" and "3 times" from the count phrases |

## Left out

- The text translation of a wildcard into a .NET regular expression
  (`Regex.Escape`, the two `Replace` calls, the `^…$` wrapper) is not modelled
  as a string. The model states the language that expression accepts
  (`GlobMatch`, `AnchoredMatch`) directly.
- The one-second match timeout of `Regex.IsMatch` is left out. The matcher is a
  total function here, so a timeout is never raised.
- WildcardMatch.FoldCase: the source ignores case with the culture-aware .NET
  regular-expression rules. The model folds ASCII letters only, so non-ASCII
  case pairs (for example `É`/`é`) are treated as different. Under a culture
  such as tr-TR, .NET does not fold `I` and `i` together, while the model
  always does.
- WildcardMatch.GlobMatch: a value is a sequence of Unicode scalar values, so
  `?` consumes one scalar value. .NET strings are UTF-16 code units and `.`
  consumes one code unit, so a character outside the Basic Multilingual Plane
  (for example an emoji, a surrogate pair) needs `??` in the source but `?`
  here; lone surrogates cannot be represented at all.
- The FluentAssertions/AwesomeAssertions execution machinery is left out: the
  `AssertionChain` / `Execute.Assertion` argument, the default identifier,
  exception throwing, and the `AndConstraint` a terminal returns. A terminal
  returns an `Outcome` instead.
- The rendering of `because` and `becauseArgs` into the `{reason}` text is left
  out. The reason is taken as already rendered text.
- The `Is<T>` type test on a recorded parameter is left out. Parameters are
  values of one type `T`, and the predicate is applied directly.
- StatisticAssertionsCount.IntToDecimal: the source writes "{count} times"
  with the current culture's number format, so the negative sign may be a
  character other than '-' (U+2212 in some cultures). The model always writes
  the invariant '-'. Counts of zero and above are written the same way in
  every culture.
- `GetCount` returns a 32-bit `int` in the source. The model counts with
  unbounded natural numbers, because more than 2^31 records cannot occur in
  practice. Expected counts are unbounded `int`s, so negative expectations are
  kept, and `CountToString(-1)` gives "-1 times" in the invariant culture.
- The source keeps `Where` results as lazy enumerables. The model takes the
  record sequence as a snapshot when the assertion is built. A parameter index
  out of range throws only when the enumeration reaches a retained call in the
  source; here it is a precondition of the narrowing (`IndexInRange`), and it
  constrains nothing when no call is retained.
- Terminals do not change the assertion object. This holds by construction:
  terminals are functions that return only an `Outcome`.
- The AwesomeAssertions `StatisticMethodAssertions.cs` is not part of this
  model. The FluentAssertions method assertions stand in for it, and
  `AwesomeStatisticAssertions.HaveCalled` builds that state.
- The FluentAssertions `StatisticAssertions` entry point is not part of this
  model. `AwesomeStatisticAssertions.HaveCalled` and
  `AwesomeStatisticAssertions.HaveAccessed` model the AwesomeAssertions one.
- The file, directory and file-system assertion classes are outside the
  modelled core.
- The method-assertion tests expect "…, but it did once." The terminals build
  "…, but it was once." (`StatisticAssertionsCount.cs` line 184). The model
  follows the code.

## Findings

| source | as written | input that shows it | evidently intended | confidence | as-written member | corrected member |
|---|---|---|---|---|---|---|
| Source/Testably.Abstractions.FluentAssertions/StatisticMethodAssertions.cs:78-81 | narrowing builds the new state with the non-null constructor (lines 40-48), so the null-subject flag is lost | `HaveCalled("WriteAllText")` on null statistics, then `WithParameterAt(0, _ => true).Never()`: passes instead of failing with "You can't assert a statistic if it is null." | a narrowed null subject stays null, so every terminal still fails with the null message | not executed | StatisticMethodAssertions.NarrowingNullSubjectClearsFlag | StatisticMethodAssertions.WithParameterAtKeepingNull |

=== FILE: awesome_statistic_assertions.dfy ===
/**
 * The AwesomeAssertions entry points into the statistics assertions
 * (Source/Testably.Abstractions.AwesomeAssertions/StatisticAssertions.cs) and
 * that flavour's property-access state
 * (Source/Testably.Abstractions.AwesomeAssertions/StatisticPropertyAssertions.cs),
 * which holds the same data as the FluentAssertions one.
 */
module AwesomeStatisticAssertions {
  import opened Wrappers
  import opened Statistics
  import opened Selection
  import opened StatisticAssertionsCount
  import StatisticMethodAssertions
  import StatisticPropertyAssertions

  type MethodAssertions<T> = StatisticMethodAssertions.MethodAssertions<T>
  type PropertyAssertions = StatisticPropertyAssertions.PropertyAssertions

  /** The null-subject constructor of this flavour's property state. */
  function NullPropertySubject(propertyName: string): (r: PropertyAssertions)
    ensures r.isSubjectNull && r.statisticName == propertyName && r.properties == []
    ensures r.AsCountSubject().count == 0
  {
    StatisticPropertyAssertions.NullSubject(propertyName)
  }

  /** The constructor of this flavour's property state over given accesses. */
  function PropertiesOf(propertyName: string, properties: seq<PropertyStatistic>): (r: PropertyAssertions)
    ensures !r.isSubjectNull && r.statisticName == propertyName && r.properties == properties
    ensures r.AsCountSubject().count == |properties|
    ensures r.AsCountSubject().kind.TypeName() == "property" && r.AsCountSubject().kind.Verb() == "accessed"
  {
    StatisticPropertyAssertions.Of(propertyName, properties)
  }

  /** Selects the records carrying exactly the name `name` (ordinal equality). */
  function NamedMethod<T>(name: string): MethodStatistic<T> -> bool
  {
    (m: MethodStatistic<T>) => m.name == name
  }

  function NamedProperty(name: string): PropertyStatistic -> bool
  {
    (p: PropertyStatistic) => p.name == name
  }

  /**
   * `HaveCalled(methodName)`: on a null subject the null-subject method
   * state; otherwise the recorded calls named `methodName`, in order.
   */
  function HaveCalled<T>(subject: Option<StatisticsRecord<T>>, methodName: string): (r: MethodAssertions<T>)
    ensures r.statisticName == methodName
    ensures r.isSubjectNull <==> subject.None?
    ensures subject.None? ==> r.methods == []
    ensures subject.Some? ==> forall m :: m in r.methods ==> m in subject.value.methods && m.name == methodName
    ensures subject.Some? ==> forall m :: m in subject.value.methods && m.name == methodName ==> m in r.methods
    ensures subject.Some? ==> |r.methods| <= |subject.value.methods|
  {
    match subject
    case None => StatisticMethodAssertions.NullSubject(methodName)
    case Some(statistics) =>
      StatisticMethodAssertions.Of(methodName, Filter(statistics.methods, NamedMethod(methodName)))
  }

  /**
   * `HaveAccessed(propertyName)`: on a null subject the null-subject property
   * state; otherwise the recorded accesses named `propertyName`, in order.
   */
  function HaveAccessed<T>(subject: Option<StatisticsRecord<T>>, propertyName: string): (r: PropertyAssertions)
    ensures r.statisticName == propertyName
    ensures r.isSubjectNull <==> subject.None?
    ensures subject.None? ==> r.properties == []
    ensures subject.Some? ==> forall p :: p in r.properties ==> p in subject.value.properties && p.name == propertyName
    ensures subject.Some? ==> forall p :: p in subject.value.properties && p.name == propertyName ==> p in r.properties
    ensures subject.Some? ==> |r.properties| <= |subject.value.properties|
  {
    match subject
    case None => NullPropertySubject(propertyName)
    case Some(statistics) =>
      PropertiesOf(propertyName, Filter(statistics.properties, NamedProperty(propertyName)))
  }

  /**
   * `HaveCalled` keeps the calls of the queried name in recording order, each
   * as often as it was recorded, and no call of another name.
   */
  lemma HaveCalledSelectsByName<T>(statistics: StatisticsRecord<T>, methodName: string)
    ensures IsSubsequence(HaveCalled(Some(statistics), methodName).methods, statistics.methods)
    ensures forall m :: multiset(HaveCalled(Some(statistics), methodName).methods)[m]
                        == if m.name == methodName then multiset(statistics.methods)[m] else 0
  {
    FilterSelectsInOrder(statistics.methods, NamedMethod(methodName));
  }

  /**
   * `HaveAccessed` keeps the accesses of the queried name in recording order,
   * each as often as it was recorded, and no access of another name.
   */
  lemma HaveAccessedSelectsByName<T>(statistics: StatisticsRecord<T>, propertyName: string)
    ensures IsSubsequence(HaveAccessed(Some(statistics), propertyName).properties, statistics.properties)
    ensures forall p :: multiset(HaveAccessed(Some(statistics), propertyName).properties)[p]
                        == if p.name == propertyName then multiset(statistics.properties)[p] else 0
  {
    FilterSelectsInOrder(statistics.properties, NamedProperty(propertyName));
  }

  /**
   * A null statistics subject fails every terminal with the null-subject
   * message, never with a count mismatch, even `Never()` and `AtLeast(0)`
   * (`n` is any threshold).
   */
  lemma NullStatisticsAlwaysFail<T>(name: string, n: int, reason: string)
    ensures var c := HaveCalled<T>(None, name).AsCountSubject();
      && Never(c, reason) == FailNull(NullSubjectMessage)
      && Once(c, reason) == FailNull(NullSubjectMessage)
      && Twice(c, reason) == FailNull(NullSubjectMessage)
      && Exactly(c, n, reason) == FailNull(NullSubjectMessage)
      && AtLeast(c, n, reason) == FailNull(NullSubjectMessage)
      && AtLeastOnce(c, reason) == FailNull(NullSubjectMessage)
      && AtLeastTwice(c, reason) == FailNull(NullSubjectMessage)
      && AtMost(c, n, reason) == FailNull(NullSubjectMessage)
      && AtMostOnce(c, reason) == FailNull(NullSubjectMessage)
      && AtMostTwice(c, reason) == FailNull(NullSubjectMessage)
    ensures var c := HaveAccessed<T>(None, name).AsCountSubject();
      && Never(c, reason) == FailNull(NullSubjectMessage)
      && Once(c, reason) == FailNull(NullSubjectMessage)
      && Twice(c, reason) == FailNull(NullSubjectMessage)
      && Exactly(c, n, reason) == FailNull(NullSubjectMessage)
      && AtLeast(c, n, reason) == FailNull(NullSubjectMessage)
      && AtLeastOnce(c, reason) == FailNull(NullSubjectMessage)
      && AtLeastTwice(c, reason) == FailNull(NullSubjectMessage)
      && AtMost(c, n, reason) == FailNull(NullSubjectMessage)
      && AtMostOnce(c, reason) == FailNull(NullSubjectMessage)
      && AtMostTwice(c, reason) == FailNull(NullSubjectMessage)
  {
  }

  /** The statistics of `IPath` after one read of `DirectorySeparatorChar`. */
  function OneSeparatorAccess(): StatisticsRecord<string>
  {
    StatisticsRecord([], [PropertyStatistic("DirectorySeparatorChar")])
  }

  /**
   * After one access of `DirectorySeparatorChar`, `Never()` fails with
   * "Expected property `DirectorySeparatorChar` to never be accessed{reason},
   * but it was once.".
   */
  lemma DirectorySeparatorCharExample(reason: string)
    ensures Never(HaveAccessed(Some(OneSeparatorAccess()), "DirectorySeparatorChar").AsCountSubject(), reason)
         == FailCount("Expected property `DirectorySeparatorChar` to never be accessed" + reason + ", but it was once.")
  {
    assert "Expected " + Property.TypeName() + " `" + "DirectorySeparatorChar" + "` to " + ("never be " + Property.Verb())
        == "Expected property `DirectorySeparatorChar` to never be accessed" by {
      assert "never be " + "accessed" == "never be accessed";
      assert "Expected " + "property" + " `" == "Expected property `";
      assert "Expected property `" + "DirectorySeparatorChar" == "Expected property `DirectorySeparatorChar";
      assert "Expected property `DirectorySeparatorChar" + "` to " == "Expected property `DirectorySeparatorChar` to ";
      assert "Expected property `DirectorySeparatorChar` to " + "never be accessed"
          == "Expected property `DirectorySeparatorChar` to never be accessed";
    }
    var props := OneSeparatorAccess().properties;
    var r := HaveAccessed(Some(OneSeparatorAccess()), "DirectorySeparatorChar");
    assert r.properties == Filter(props, NamedProperty("DirectorySeparatorChar"));
    assert r.properties == props;
    assert r.AsCountSubject() == CountSubject(false, "DirectorySeparatorChar", Property, 1);
    NeverOnceMessage("DirectorySeparatorChar", Property, reason);
  }

  /**
   * The statistics of `IFile` after writing the same file three times, with
   * one read of another file in between and one property access.
   */
  function ThreeWrites(): StatisticsRecord<string>
  {
    var write := MethodStatistic("WriteAllText", [Some("foo"), Some("bar")]);
    var read := MethodStatistic("ReadAllText", [Some("foo")]);
    StatisticsRecord([write, read, write, write], [PropertyStatistic("DirectorySeparatorChar")])
  }

  /** The three writes are selected by name; the read is not. */
  lemma ThreeWritesCount()
    ensures HaveCalled(Some(ThreeWrites()), "WriteAllText").AsCountSubject()
         == CountSubject(false, "WriteAllText", Method, 3)
  {
    var calls := ThreeWrites().methods;
    var keep := NamedMethod<string>("WriteAllText");
    assert keep(calls[0]) && !keep(calls[1]);
    assert Filter(calls[3..], keep) == calls[3..];
    assert Filter(calls[2..], keep) == calls[2..];
    assert Filter(calls[1..], keep) == calls[2..];
    assert Filter(calls, keep) == [calls[0]] + calls[2..];
  }

  /**
   * After three writes, "called exactly 3 times" passes and "called at most
   * twice" fails, reporting the actual count as "3 times".
   */
  lemma ThreeWritesExample(reason: string)
    ensures Exactly(HaveCalled(Some(ThreeWrites()), "WriteAllText").AsCountSubject(), 3, reason) == Pass
    ensures AtMost(HaveCalled(Some(ThreeWrites()), "WriteAllText").AsCountSubject(), 2, reason)
         == FailCount("Expected method `WriteAllText` to be called at most twice" + reason + ", but it was 3 times.")
  {
    ThreeWritesCount();
    AtMostTwiceThreeMessage(reason);
  }

  /** The message `AtMost(2)` fails with when `WriteAllText` was called three times. */
  lemma AtMostTwiceThreeMessage(reason: string)
    ensures AtMost(CountSubject(false, "WriteAllText", Method, 3), 2, reason)
         == FailCount("Expected method `WriteAllText` to be called at most twice" + reason + ", but it was 3 times.")
  {
    var c := CountSubject(false, "WriteAllText", Method, 3);
    WriteAllTextAtMostTwiceText();
    assert CountToString(2) == "twice";
    assert ", but it was " + CountToString(3) + "." == ", but it was 3 times." by {
      assert CountToString(3) == "3 times" by {
        assert IntToDecimal(3) == "3";
      }
      assert ", but it was " + "3 times" == ", but it was 3 times";
    }
    AtMostFailureMessage(c, 2, reason);
  }

  /**
   * The head of that message with its parts filled in; a separate lemma only
   * so that the string arithmetic is checked apart from the message proof.
   */
  lemma WriteAllTextAtMostTwiceText()
    ensures "Expected " + Method.TypeName() + " `" + "WriteAllText" + "` to " + ("be " + Method.Verb() + " at most " + "twice")
         == "Expected method `WriteAllText` to be called at most twice"
  {
    assert "be " + "called" + " at most " + "twice" == "be called at most twice";
    assert "Expected " + "method" + " `" == "Expected method `";
    assert "Expected method `" + "WriteAllText" == "Expected method `WriteAllText";
    assert "Expected method `WriteAllText" + "` to " == "Expected method `WriteAllText` to ";
    assert "Expected method `WriteAllText` to " + "be called at most twice"
        == "Expected method `WriteAllText` to be called at most twice";
  }
}

=== FILE: selection.dfy ===
/**
 * Order-preserving selection over a sequence of records: the semantics of the
 * LINQ `Where` calls that select statistics by name and narrow them by
 * parameter (a lazy `Where` enumerated by `Count()` keeps exactly the records
 * its predicate accepts, in their original order).
 */
module Selection {

  /** The records of `s` that `keep` accepts, in the order they appear in `s`. */
  function Filter<R>(s: seq<R>, keep: R -> bool): (r: seq<R>)
    ensures |r| <= |s|
    ensures forall x :: x in r ==> x in s && keep(x)
    ensures forall x :: x in s && keep(x) ==> x in r
  {
    if s == [] then []
    else (if keep(s[0]) then [s[0]] else []) + Filter(s[1..], keep)
  }

  /** `r` is `s` with some of its records left out, the others kept in order. */
  ghost predicate IsSubsequence<R>(r: seq<R>, s: seq<R>)
    decreases |s|
  {
    if r == [] then true
    else if s == [] then false
    else (r[0] == s[0] && IsSubsequence(r[1..], s[1..])) || IsSubsequence(r, s[1..])
  }

  /**
   * Exact characterization of `Filter`: the result is a subsequence of `s`
   * (original order), and every record occurs in it exactly as often as in
   * `s` when `keep` accepts it, and not at all otherwise. Only one
   * subsequence of `s` has that multiset, so this determines the result.
   */
  lemma {:induction false} FilterSelectsInOrder<R>(s: seq<R>, keep: R -> bool)
    ensures IsSubsequence(Filter(s, keep), s)
    ensures forall x :: multiset(Filter(s, keep))[x] == if keep(x) then multiset(s)[x] else 0
  {
    if s != [] {
      FilterSelectsInOrder(s[1..], keep);
      assert s == [s[0]] + s[1..];
      assert multiset(s) == multiset{s[0]} + multiset(s[1..]);
      var r := Filter(s, keep);
      if keep(s[0]) {
        assert r == [s[0]] + Filter(s[1..], keep);
        assert r[1..] == Filter(s[1..], keep);
        assert multiset(r) == multiset{s[0]} + multiset(Filter(s[1..], keep));
      } else {
        assert r == Filter(s[1..], keep);
        if r != [] {
          assert IsSubsequence(r, s[1..]);
        }
      }
    }
  }

  /** Filtering by two predicates in turn equals filtering once by their conjunction `both`. */
  lemma {:induction false} FilterTwice<R>(s: seq<R>, p: R -> bool, q: R -> bool, both: R -> bool)
    requires forall x :: both(x) == (p(x) && q(x))
    ensures Filter(Filter(s, p), q) == Filter(s, both)
  {
    if s != [] {
      FilterTwice(s[1..], p, q, both);
      var head := if p(s[0]) then [s[0]] else [];
      assert Filter(s, p) == head + Filter(s[1..], p);
      FilterAppend(head, Filter(s[1..], p), q);
      assert Filter(head, q) == if both(s[0]) then [s[0]] else [];
    }
  }

  /** Filtering distributes over concatenation. */
  lemma {:induction false} FilterAppend<R>(a: seq<R>, b: seq<R>, keep: R -> bool)
    ensures Filter(a + b, keep) == Filter(a, keep) + Filter(b, keep)
  {
    if a == [] {
      assert a + b == b;
    } else {
      assert (a + b)[1..] == a[1..] + b;
      FilterAppend(a[1..], b, keep);
    }
  }

  /** The order in which two filters are applied does not matter. */
  lemma FilterCommutes<R>(s: seq<R>, p: R -> bool, q: R -> bool)
    ensures Filter(Filter(s, p), q) == Filter(Filter(s, q), p)
  {
    var both := x => p(x) && q(x);
    FilterTwice(s, p, q, both);
    FilterTwice(s, q, p, both);
  }
}

=== FILE: statistic_assertions_count.dfy ===
/**
 * The terminal count comparisons shared by method and property statistics
 * (Source/Testably.Abstractions.FluentAssertions/StatisticAssertionsCount.cs).
 *
 * Every terminal reads the count, then runs a two-step check: a null subject
 * fails with a fixed message, otherwise the count comparison decides, and a
 * failure carries a message built from the statistic's kind, name, the
 * expectation, the caller's reason and the actual count. The reason is taken
 * as already rendered text placed at the `{reason}` slot.
 */
module StatisticAssertionsCount {
  import opened Wrappers

  /** Methods are "called", properties are "accessed". */
  datatype StatisticKind = Method | Property
  {
    function TypeName(): string
    {
      match this
      case Method => "method"
      case Property => "property"
    }

    function Verb(): string
    {
      match this
      case Method => "called"
      case Property => "accessed"
    }
  }

  /**
   * What a terminal comparison reads from the state it ends: the null-subject
   * flag, the statistic's name and kind, and the number of retained records.
   */
  datatype CountSubject = CountSubject(isSubjectNull: bool, statisticName: string, kind: StatisticKind, count: nat)

  /** The outcome of a terminal: it passes or it fails with a message. */
  datatype Outcome = Pass | FailNull(message: string) | FailCount(message: string)

  /** The null-subject message: fixed text, with no slot for the reason. */
  const NullSubjectMessage: string := "You can't assert a statistic if it is null."

  // ---------------------------------------------------------------------
  // Count phrases
  // ---------------------------------------------------------------------

  function DigitChar(d: nat): (c: char)
    requires d < 10
    ensures '0' <= c <= '9' && c as int - '0' as int == d
  {
    (d + '0' as int) as char
  }

  /** Decimal digits of `n`, without leading zeros. */
  function NatToDecimal(n: nat): (s: string)
    ensures s != [] && '0' <= s[0] <= '9'
    ensures n > 0 ==> s[0] != '0'
    decreases n
  {
    if n < 10 then [DigitChar(n)] else NatToDecimal(n / 10) + [DigitChar(n % 10)]
  }

  /**
   * `n` in decimal digits, with a leading '-' when negative (the sign the
   * invariant culture writes).
   */
  function IntToDecimal(n: int): (s: string)
    ensures s != []
    ensures s[0] == '-' <==> n < 0
  {
    if n < 0 then "-" + NatToDecimal(-n) else NatToDecimal(n)
  }

  /** `CountToString`: 0, 1 and 2 read "never", "once" and "twice", any other n reads "n times". */
  function CountToString(n: int): string
  {
    if n == 0 then "never"
    else if n == 1 then "once"
    else if n == 2 then "twice"
    else IntToDecimal(n) + " times"
  }

  /** The value of a string of decimal digits. */
  function DigitsValue(s: string): nat
  {
    if s == [] then 0
    else DigitsValue(s[..|s| - 1]) * 10 + (if '0' <= s[|s| - 1] <= '9' then s[|s| - 1] as int - '0' as int else 0)
  }

  predicate AllDigits(s: string)
  {
    forall i :: 0 <= i < |s| ==> '0' <= s[i] <= '9'
  }

  /** Reads back a decimal integer with an optional leading minus sign. */
  function ParseDecimal(s: string): Option<int>
  {
    if s != [] && s[0] == '-' then
      (if |s| > 1 && AllDigits(s[1..]) then Some(-(DigitsValue(s[1..]) as int)) else None)
    else if s != [] && AllDigits(s) then Some(DigitsValue(s))
    else None
  }

  /** The inverse of `CountToString`: reads a count phrase back into the count. */
  function ParseCountPhrase(s: string): Option<int>
  {
    if s == "never" then Some(0)
    else if s == "once" then Some(1)
    else if s == "twice" then Some(2)
    else if |s| > 6 && s[|s| - 6..] == " times" then ParseDecimal(s[..|s| - 6])
    else None
  }

  lemma {:induction false} NatToDecimalRoundTrip(n: nat)
    ensures AllDigits(NatToDecimal(n)) && DigitsValue(NatToDecimal(n)) == n
    decreases n
  {
    var s := NatToDecimal(n);
    if n < 10 {
      assert s[..|s| - 1] == [];
    } else {
      NatToDecimalRoundTrip(n / 10);
      assert s[..|s| - 1] == NatToDecimal(n / 10);
    }
  }

  /** A signed decimal reads back as the integer it renders. */
  lemma IntToDecimalRoundTrip(n: int)
    ensures ParseDecimal(IntToDecimal(n)) == Some(n)
    ensures IntToDecimal(n)[0] == '-' || '0' <= IntToDecimal(n)[0] <= '9'
  {
    if n < 0 {
      NatToDecimalRoundTrip(-n);
      assert IntToDecimal(n)[1..] == NatToDecimal(-n);
    } else {
      NatToDecimalRoundTrip(n);
    }
  }

  /** Every count phrase reads back as the count it renders. */
  lemma CountPhraseRoundTrip(n: int)
    ensures ParseCountPhrase(CountToString(n)) == Some(n)
  {
    if n != 0 && n != 1 && n != 2 {
      var digits := IntToDecimal(n);
      IntToDecimalRoundTrip(n);
      var s := digits + " times";
      assert s[0] == digits[0];
      assert s != "never" && s != "once" && s != "twice" by {
        assert "never"[0] == 'n' && "once"[0] == 'o' && "twice"[0] == 't';
      }
      assert s[|s| - 6..] == " times";
      assert s[..|s| - 6] == digits;
    }
  }

  /** Distinct counts render as distinct phrases. */
  lemma CountPhraseInjective(a: int, b: int)
    requires CountToString(a) == CountToString(b)
    ensures a == b
  {
    CountPhraseRoundTrip(a);
    CountPhraseRoundTrip(b);
  }

  // ---------------------------------------------------------------------
  // The terminal comparisons
  // ---------------------------------------------------------------------

  /**
   * The count-failure message:
   * "Expected {type} `{name}` to {expectation}{reason}, but it was {actual}."
   */
  function FailureMessage(c: CountSubject, expectation: string, reason: string): string
  {
    "Expected " + c.kind.TypeName() + " `" + c.statisticName + "` to " + expectation + reason
    + ", but it was " + CountToString(c.count) + "."
  }

  /** The two-step condition chain every terminal evaluates. */
  function Assess(c: CountSubject, holds: bool, expectation: string, reason: string): (r: Outcome)
    ensures r.Pass? <==> !c.isSubjectNull && holds
    ensures r.FailNull? <==> c.isSubjectNull
    ensures r.FailNull? ==> r.message == NullSubjectMessage
    ensures r.FailCount? ==> r.message == FailureMessage(c, expectation, reason)
  {
    if c.isSubjectNull then FailNull(NullSubjectMessage)
    else if holds then Pass
    else FailCount(FailureMessage(c, expectation, reason))
  }

  /** `AtLeast(n)`: passes iff the subject is not null and the count is at least `n`. */
  function AtLeast(c: CountSubject, n: int, reason: string): (r: Outcome)
    ensures r.Pass? <==> !c.isSubjectNull && c.count >= n
    ensures c.isSubjectNull ==> r == FailNull(NullSubjectMessage)
    ensures r.FailNull? ==> c.isSubjectNull
    ensures r.FailCount? ==> r.message == FailureMessage(c, "be " + c.kind.Verb() + " at least " + CountToString(n), reason)
  {
    Assess(c, c.count >= n, "be " + c.kind.Verb() + " at least " + CountToString(n), reason)
  }

  /** `AtLeastOnce()`: passes iff the subject is not null and the count is at least 1. */
  function AtLeastOnce(c: CountSubject, reason: string): (r: Outcome)
    ensures r.Pass? <==> !c.isSubjectNull && c.count >= 1
    ensures c.isSubjectNull ==> r == FailNull(NullSubjectMessage)
    ensures r.FailNull? ==> c.isSubjectNull
    ensures r.FailCount? ==> r.message == FailureMessage(c, "be " + c.kind.Verb() + " at least once", reason)
  {
    Assess(c, c.count >= 1, "be " + c.kind.Verb() + " at least once", reason)
  }

  /** `AtLeastTwice()`: passes iff the subject is not null and the count is at least 2. */
  function AtLeastTwice(c: CountSubject, reason: string): (r: Outcome)
    ensures r.Pass? <==> !c.isSubjectNull && c.count >= 2
    ensures c.isSubjectNull ==> r == FailNull(NullSubjectMessage)
    ensures r.FailNull? ==> c.isSubjectNull
    ensures r.FailCount? ==> r.message == FailureMessage(c, "be " + c.kind.Verb() + " at least twice", reason)
  {
    Assess(c, c.count >= 2, "be " + c.kind.Verb() + " at least twice", reason)
  }

  /** `AtMost(n)`: passes iff the subject is not null and the count is at most `n`. */
  function AtMost(c: CountSubject, n: int, reason: string): (r: Outcome)
    ensures r.Pass? <==> !c.isSubjectNull && c.count <= n
    ensures c.isSubjectNull ==> r == FailNull(NullSubjectMessage)
    ensures r.FailNull? ==> c.isSubjectNull
    ensures r.FailCount? ==> r.message == FailureMessage(c, "be " + c.kind.Verb() + " at most " + CountToString(n), reason)
  {
    Assess(c, c.count <= n, "be " + c.kind.Verb() + " at most " + CountToString(n), reason)
  }

  /** `AtMostOnce()`: passes iff the subject is not null and the count is at most 1. */
  function AtMostOnce(c: CountSubject, reason: string): (r: Outcome)
    ensures r.Pass? <==> !c.isSubjectNull && c.count <= 1
    ensures c.isSubjectNull ==> r == FailNull(NullSubjectMessage)
    ensures r.FailNull? ==> c.isSubjectNull
    ensures r.FailCount? ==> r.message == FailureMessage(c, "be " + c.kind.Verb() + " at most once", reason)
  {
    Assess(c, c.count <= 1, "be " + c.kind.Verb() + " at most once", reason)
  }

  /** `AtMostTwice()`: passes iff the subject is not null and the count is at most 2. */
  function AtMostTwice(c: CountSubject, reason: string): (r: Outcome)
    ensures r.Pass? <==> !c.isSubjectNull && c.count <= 2
    ensures c.isSubjectNull ==> r == FailNull(NullSubjectMessage)
    ensures r.FailNull? ==> c.isSubjectNull
    ensures r.FailCount? ==> r.message == FailureMessage(c, "be " + c.kind.Verb() + " at most twice", reason)
  {
    Assess(c, c.count <= 2, "be " + c.kind.Verb() + " at most twice", reason)
  }

  /** `Exactly(n)`: passes iff the subject is not null and the count is `n`. */
  function Exactly(c: CountSubject, n: int, reason: string): (r: Outcome)
    ensures r.Pass? <==> !c.isSubjectNull && c.count == n
    ensures c.isSubjectNull ==> r == FailNull(NullSubjectMessage)
    ensures r.FailNull? ==> c.isSubjectNull
    ensures r.FailCount? ==> r.message == FailureMessage(c, "be " + c.kind.Verb() + " " + CountToString(n), reason)
  {
    Assess(c, c.count == n, "be " + c.kind.Verb() + " " + CountToString(n), reason)
  }

  /** `Never()`: passes iff the subject is not null and the count is 0. */
  function Never(c: CountSubject, reason: string): (r: Outcome)
    ensures r.Pass? <==> !c.isSubjectNull && c.count == 0
    ensures c.isSubjectNull ==> r == FailNull(NullSubjectMessage)
    ensures r.FailNull? ==> c.isSubjectNull
    ensures r.FailCount? ==> r.message == FailureMessage(c, "never be " + c.kind.Verb(), reason)
  {
    Assess(c, c.count == 0, "never be " + c.kind.Verb(), reason)
  }

  /** `Once()`: passes iff the subject is not null and the count is 1. */
  function Once(c: CountSubject, reason: string): (r: Outcome)
    ensures r.Pass? <==> !c.isSubjectNull && c.count == 1
    ensures c.isSubjectNull ==> r == FailNull(NullSubjectMessage)
    ensures r.FailNull? ==> c.isSubjectNull
    ensures r.FailCount? ==> r.message == FailureMessage(c, "be " + c.kind.Verb() + " once", reason)
  {
    Assess(c, c.count == 1, "be " + c.kind.Verb() + " once", reason)
  }

  /** `Twice()`: passes iff the subject is not null and the count is 2. */
  function Twice(c: CountSubject, reason: string): (r: Outcome)
    ensures r.Pass? <==> !c.isSubjectNull && c.count == 2
    ensures c.isSubjectNull ==> r == FailNull(NullSubjectMessage)
    ensures r.FailNull? ==> c.isSubjectNull
    ensures r.FailCount? ==> r.message == FailureMessage(c, "be " + c.kind.Verb() + " twice", reason)
  {
    Assess(c, c.count == 2, "be " + c.kind.Verb() + " twice", reason)
  }

  // ---------------------------------------------------------------------
  // Properties of the terminals
  // ---------------------------------------------------------------------

  /** `AtLeastOnce` and `AtLeastTwice` are `AtLeast(1)` and `AtLeast(2)`, outcome and message alike. */
  lemma AtLeastShorthandsAgree(c: CountSubject, reason: string)
    ensures AtLeastOnce(c, reason) == AtLeast(c, 1, reason)
    ensures AtLeastTwice(c, reason) == AtLeast(c, 2, reason)
  {
    var verb := "be " + c.kind.Verb();
    assert CountToString(1) == "once" && CountToString(2) == "twice";
    assert verb + " at least " + CountToString(1) == verb + " at least once" by {
      assert " at least " + "once" == " at least once";
    }
    assert verb + " at least " + CountToString(2) == verb + " at least twice" by {
      assert " at least " + "twice" == " at least twice";
    }
  }

  /** `AtMostOnce` and `AtMostTwice` are `AtMost(1)` and `AtMost(2)`, outcome and message alike. */
  lemma AtMostShorthandsAgree(c: CountSubject, reason: string)
    ensures AtMostOnce(c, reason) == AtMost(c, 1, reason)
    ensures AtMostTwice(c, reason) == AtMost(c, 2, reason)
  {
    var verb := "be " + c.kind.Verb();
    assert CountToString(1) == "once" && CountToString(2) == "twice";
    assert verb + " at most " + CountToString(1) == verb + " at most once" by {
      assert " at most " + "once" == " at most once";
    }
    assert verb + " at most " + CountToString(2) == verb + " at most twice" by {
      assert " at most " + "twice" == " at most twice";
    }
  }

  /** `Once` and `Twice` are `Exactly(1)` and `Exactly(2)`, outcome and message alike. */
  lemma ExactShorthandsAgree(c: CountSubject, reason: string)
    ensures Once(c, reason) == Exactly(c, 1, reason)
    ensures Twice(c, reason) == Exactly(c, 2, reason)
  {
    var verb := "be " + c.kind.Verb();
    assert CountToString(1) == "once" && CountToString(2) == "twice";
    assert verb + " " + CountToString(1) == verb + " once" by {
      assert " " + "once" == " once";
    }
    assert verb + " " + CountToString(2) == verb + " twice" by {
      assert " " + "twice" == " twice";
    }
  }

  /**
   * `Never` and `Exactly(0)` agree on every outcome, but when the count is
   * not zero their messages differ ("to never be …" against "to be … never").
   */
  lemma NeverAgreesWithExactlyZero(c: CountSubject, reason: string)
    ensures Never(c, reason).Pass? == Exactly(c, 0, reason).Pass?
    ensures Never(c, reason).FailNull? == Exactly(c, 0, reason).FailNull?
    ensures !c.isSubjectNull && c.count != 0 ==> Never(c, reason) != Exactly(c, 0, reason)
  {
    if !c.isSubjectNull && c.count != 0 {
      var head := "Expected " + c.kind.TypeName() + " `" + c.statisticName + "` to ";
      var never := FailureMessage(c, "never be " + c.kind.Verb(), reason);
      var exactly := FailureMessage(c, "be " + c.kind.Verb() + " " + CountToString(0), reason);
      assert never[|head|] == 'n';
      assert exactly[|head|] == 'b';
    }
  }

  /**
   * The count-failure message determines the actual count: two subjects with
   * the same name and kind, failing the same expectation with the same
   * reason, give the same message only if their counts are equal.
   */
  lemma FailureMessageDeterminesCount(c: CountSubject, d: CountSubject, expectation: string, reason: string)
    requires c.statisticName == d.statisticName && c.kind == d.kind
    requires FailureMessage(c, expectation, reason) == FailureMessage(d, expectation, reason)
    ensures c.count == d.count
  {
    var head := "Expected " + c.kind.TypeName() + " `" + c.statisticName + "` to " + expectation + reason
                + ", but it was ";
    var m := FailureMessage(c, expectation, reason);
    assert m == head + CountToString(c.count) + ".";
    assert m == head + CountToString(d.count) + ".";
    assert CountToString(c.count) == m[|head|..|m| - 1];
    assert CountToString(d.count) == m[|head|..|m| - 1];
    CountPhraseInjective(c.count, d.count);
  }

  /**
   * For a non-null subject, `AtLeast(n)` and `AtMost(n)` both pass exactly
   * when `Exactly(n)` does, and at least one of them always passes.
   */
  lemma BoundsMeetAtExactly(c: CountSubject, n: int, reason: string)
    requires !c.isSubjectNull
    ensures (AtLeast(c, n, reason).Pass? && AtMost(c, n, reason).Pass?) <==> Exactly(c, n, reason).Pass?
    ensures AtLeast(c, n, reason).Pass? || AtMost(c, n, reason).Pass?
  {
  }

  /** The message `Never` fails with when the statistic was recorded once. */
  lemma NeverOnceMessage(name: string, kind: StatisticKind, reason: string)
    ensures Never(CountSubject(false, name, kind, 1), reason)
         == FailCount(("Expected " + kind.TypeName() + " `" + name + "` to " + ("never be " + kind.Verb()))
                      + reason + ", but it was once.")
  {
    assert CountToString(1) == "once";
    assert ", but it was " + "once" + "." == ", but it was once.";
  }

  /** The message `AtMost(n)` fails with, written out: a non-null subject counted more than `n` times. */
  lemma AtMostFailureMessage(c: CountSubject, n: int, reason: string)
    requires !c.isSubjectNull && c.count > n
    ensures AtMost(c, n, reason)
         == FailCount(("Expected " + c.kind.TypeName() + " `" + c.statisticName + "` to "
                       + ("be " + c.kind.Verb() + " at most " + CountToString(n)))
                      + reason + (", but it was " + CountToString(c.count) + "."))
  {
  }
}

=== FILE: statistic_method_assertions.dfy ===
/**
 * The method-call statistics state and its narrowing by parameters
 * (Source/Testably.Abstractions.FluentAssertions/StatisticMethodAssertions.cs).
 *
 * A state is immutable: every narrowing builds a new state from a `Where`
 * over the retained calls, through the constructor that sets the
 * null-subject flag to false.
 */
module StatisticMethodAssertions {
  import opened Wrappers
  import opened Statistics
  import opened Selection
  import opened StatisticAssertionsCount

  /** The retained calls of the method named `statisticName`. */
  datatype MethodAssertions<T> = MethodAssertions(isSubjectNull: bool, statisticName: string, methods: seq<MethodStatistic<T>>)
  {
    /** `GetCount()`: the number of retained calls. */
    function GetCount(): nat
    {
      |methods|
    }

    /** What the terminal comparisons read: kind "method", verb "called". */
    function AsCountSubject(): (c: CountSubject)
      ensures c.kind.TypeName() == "method" && c.kind.Verb() == "called"
      ensures c.isSubjectNull == isSubjectNull && c.statisticName == statisticName
      ensures c.count == |methods|
    {
      CountSubject(isSubjectNull, statisticName, Method, GetCount())
    }
  }

  /** The constructor for a null subject: flagged, with no calls. */
  function NullSubject<T>(methodName: string): (r: MethodAssertions<T>)
    ensures r.isSubjectNull && r.statisticName == methodName && r.methods == []
    ensures r.GetCount() == 0
  {
    MethodAssertions(true, methodName, [])
  }

  /** The constructor over given calls: not flagged, the calls kept as they are. */
  function Of<T>(methodName: string, methods: seq<MethodStatistic<T>>): (r: MethodAssertions<T>)
    ensures !r.isSubjectNull && r.statisticName == methodName && r.methods == methods
    ensures r.GetCount() == |methods|
  {
    MethodAssertions(false, methodName, methods)
  }

  /**
   * Every retained call has a parameter at `index`; reading one that is out
   * of range throws in the source instead of filtering the call out. With no
   * retained call the index is never read, so any index is accepted.
   */
  predicate IndexInRange<T>(s: MethodAssertions<T>, index: int)
    ensures s.methods == [] ==> IndexInRange(s, index)
    ensures IndexInRange(s, index) && s.methods != [] ==> 0 <= index < |s.methods[0].parameters|
  {
    forall k :: 0 <= k < |s.methods| ==> 0 <= index < |s.methods[k].parameters|
  }

  /** The filter a narrowing applies: the parameter at `index` satisfies `accepts`. */
  function ParameterSatisfies<T>(index: int, accepts: Option<T> -> bool): MethodStatistic<T> -> bool
  {
    (m: MethodStatistic<T>) => 0 <= index < |m.parameters| && accepts(m.parameters[index])
  }

  /**
   * `WithParameterAt(index, accepts)`: keeps exactly the calls whose
   * parameter at `index` satisfies `accepts`, in their original order,
   * under the same name, and always with the null-subject flag cleared.
   */
  function WithParameterAt<T>(s: MethodAssertions<T>, index: int, accepts: Option<T> -> bool): (r: MethodAssertions<T>)
    requires IndexInRange(s, index)
    ensures !r.isSubjectNull && r.statisticName == s.statisticName
    ensures forall m :: m in r.methods ==> m in s.methods && accepts(m.parameters[index])
    ensures forall m :: m in s.methods && accepts(m.parameters[index]) ==> m in r.methods
    ensures IsSubsequence(r.methods, s.methods)
    ensures r.GetCount() <= s.GetCount()
  {
    FilterSelectsInOrder(s.methods, ParameterSatisfies(index, accepts));
    Of(s.statisticName, Filter(s.methods, ParameterSatisfies(index, accepts)))
  }

  /** The source's null-aware equality: `null` equals only `null`, otherwise `Equals` decides. */
  function NullAwareEquals<T(==)>(parameter: Option<T>, expected: Option<T>): (r: bool)
    ensures r <==> parameter == expected
  {
    match parameter
    case None => expected.None?
    case Some(p) => expected.Some? && p == expected.value
  }

  /**
   * `WithParameterAt(index, value)`: keeps exactly the calls whose parameter
   * at `index` equals `value`, in their original order.
   */
  function WithParameterValueAt<T(==)>(s: MethodAssertions<T>, index: int, value: Option<T>): (r: MethodAssertions<T>)
    requires IndexInRange(s, index)
    ensures !r.isSubjectNull && r.statisticName == s.statisticName
    ensures forall m :: m in r.methods ==> m in s.methods && m.parameters[index] == value
    ensures forall m :: m in s.methods && m.parameters[index] == value ==> m in r.methods
    ensures IsSubsequence(r.methods, s.methods)
  {
    WithParameterAt(s, index, p => NullAwareEquals(p, value))
  }

  /** `WithFirstParameter(accepts)`: the narrowing at index 0. */
  function WithFirstParameter<T>(s: MethodAssertions<T>, accepts: Option<T> -> bool): (r: MethodAssertions<T>)
    requires IndexInRange(s, 0)
    ensures !r.isSubjectNull && r.statisticName == s.statisticName
    ensures forall m :: m in r.methods ==> m in s.methods && accepts(m.parameters[0])
    ensures forall m :: m in s.methods && accepts(m.parameters[0]) ==> m in r.methods
  {
    WithParameterAt(s, 0, accepts)
  }

  /** `WithSecondParameter(accepts)`: the narrowing at index 1. */
  function WithSecondParameter<T>(s: MethodAssertions<T>, accepts: Option<T> -> bool): (r: MethodAssertions<T>)
    requires IndexInRange(s, 1)
    ensures !r.isSubjectNull && r.statisticName == s.statisticName
    ensures forall m :: m in r.methods ==> m in s.methods && accepts(m.parameters[1])
    ensures forall m :: m in s.methods && accepts(m.parameters[1]) ==> m in r.methods
  {
    WithParameterAt(s, 1, accepts)
  }

  /** `WithThirdParameter(accepts)`: the narrowing at index 2. */
  function WithThirdParameter<T>(s: MethodAssertions<T>, accepts: Option<T> -> bool): (r: MethodAssertions<T>)
    requires IndexInRange(s, 2)
    ensures !r.isSubjectNull && r.statisticName == s.statisticName
    ensures forall m :: m in r.methods ==> m in s.methods && accepts(m.parameters[2])
    ensures forall m :: m in s.methods && accepts(m.parameters[2]) ==> m in r.methods
  {
    WithParameterAt(s, 2, accepts)
  }

  /** `WithFirstParameter(value)`: the value narrowing at index 0. */
  function WithFirstParameterValue<T(==)>(s: MethodAssertions<T>, value: Option<T>): (r: MethodAssertions<T>)
    requires IndexInRange(s, 0)
    ensures !r.isSubjectNull && r.statisticName == s.statisticName
    ensures forall m :: m in r.methods ==> m in s.methods && m.parameters[0] == value
    ensures forall m :: m in s.methods && m.parameters[0] == value ==> m in r.methods
  {
    WithParameterValueAt(s, 0, value)
  }

  /** `WithSecondParameter(value)`: the value narrowing at index 1. */
  function WithSecondParameterValue<T(==)>(s: MethodAssertions<T>, value: Option<T>): (r: MethodAssertions<T>)
    requires IndexInRange(s, 1)
    ensures !r.isSubjectNull && r.statisticName == s.statisticName
    ensures forall m :: m in r.methods ==> m in s.methods && m.parameters[1] == value
    ensures forall m :: m in s.methods && m.parameters[1] == value ==> m in r.methods
  {
    WithParameterValueAt(s, 1, value)
  }

  /** `WithThirdParameter(value)`: the value narrowing at index 2. */
  function WithThirdParameterValue<T(==)>(s: MethodAssertions<T>, value: Option<T>): (r: MethodAssertions<T>)
    requires IndexInRange(s, 2)
    ensures !r.isSubjectNull && r.statisticName == s.statisticName
    ensures forall m :: m in r.methods ==> m in s.methods && m.parameters[2] == value
    ensures forall m :: m in s.methods && m.parameters[2] == value ==> m in r.methods
  {
    WithParameterValueAt(s, 2, value)
  }

  // ---------------------------------------------------------------------
  // Properties of narrowing
  // ---------------------------------------------------------------------

  /**
   * Narrowing retains exactly the accepted calls: each accepted call as often
   * as it was recorded, each rejected call not at all.
   */
  lemma NarrowingKeepsAcceptedCalls<T>(s: MethodAssertions<T>, index: int, accepts: Option<T> -> bool)
    requires IndexInRange(s, index)
    ensures forall m :: m in s.methods ==>
      multiset(WithParameterAt(s, index, accepts).methods)[m]
        == if accepts(m.parameters[index]) then multiset(s.methods)[m] else 0
  {
    FilterSelectsInOrder(s.methods, ParameterSatisfies(index, accepts));
  }

  /**
   * Two successive narrowings at the same index equal one narrowing by the
   * conjunction of their predicates.
   */
  lemma NarrowingTwiceIsConjunction<T>(s: MethodAssertions<T>, index: int, p: Option<T> -> bool, q: Option<T> -> bool)
    requires IndexInRange(s, index)
    ensures IndexInRange(WithParameterAt(s, index, p), index)
    ensures WithParameterAt(WithParameterAt(s, index, p), index, q)
         == WithParameterAt(s, index, x => p(x) && q(x))
  {
    FilterTwice(s.methods, ParameterSatisfies(index, p), ParameterSatisfies(index, q),
                ParameterSatisfies(index, x => p(x) && q(x)));
  }

  /**
   * Narrowings commute: narrowing at `i` by `p` and then at `j` by `q` gives
   * the state of the opposite order.
   */
  lemma NarrowingsCommute<T>(s: MethodAssertions<T>, i: int, p: Option<T> -> bool, j: int, q: Option<T> -> bool)
    requires IndexInRange(s, i) && IndexInRange(s, j)
    ensures IndexInRange(WithParameterAt(s, i, p), j) && IndexInRange(WithParameterAt(s, j, q), i)
    ensures WithParameterAt(WithParameterAt(s, i, p), j, q) == WithParameterAt(WithParameterAt(s, j, q), i, p)
  {
    FilterCommutes(s.methods, ParameterSatisfies(i, p), ParameterSatisfies(j, q));
  }

  /**
   * Narrowing a null-subject state clears the flag, so a terminal on it no
   * longer fails as a null subject: `Never()` passes where the null subject
   * itself fails.
   */
  lemma NarrowingNullSubjectClearsFlag<T>(methodName: string, index: int, accepts: Option<T> -> bool, reason: string)
    ensures !WithParameterAt(NullSubject<T>(methodName), index, accepts).isSubjectNull
    ensures Never(NullSubject<T>(methodName).AsCountSubject(), reason) == FailNull(NullSubjectMessage)
    ensures Never(WithParameterAt(NullSubject<T>(methodName), index, accepts).AsCountSubject(), reason) == Pass
  {
    var r := WithParameterAt(NullSubject<T>(methodName), index, accepts);
    assert r.methods == [];
  }

  /**
   * The narrowing as evidently intended: the same selection, but a
   * null-subject state stays a null-subject state.
   */
  function WithParameterAtKeepingNull<T>(s: MethodAssertions<T>, index: int, accepts: Option<T> -> bool): (r: MethodAssertions<T>)
    requires IndexInRange(s, index)
    ensures r.isSubjectNull == s.isSubjectNull && r.statisticName == s.statisticName
    ensures r.methods == WithParameterAt(s, index, accepts).methods
    ensures !s.isSubjectNull ==> r == WithParameterAt(s, index, accepts)
  {
    MethodAssertions(s.isSubjectNull, s.statisticName, WithParameterAt(s, index, accepts).methods)
  }

  /** With the corrected narrowing, every terminal on a narrowed null subject still fails as null. */
  lemma KeepingNullStillFails<T>(s: MethodAssertions<T>, index: int, accepts: Option<T> -> bool, n: int, reason: string)
    requires IndexInRange(s, index) && s.isSubjectNull
    ensures var c := WithParameterAtKeepingNull(s, index, accepts).AsCountSubject();
      && Never(c, reason) == FailNull(NullSubjectMessage)
      && Once(c, reason) == FailNull(NullSubjectMessage)
      && Twice(c, reason) == FailNull(NullSubjectMessage)
      && Exactly(c, n, reason) == FailNull(NullSubjectMessage)
      && AtLeast(c, n, reason) == FailNull(NullSubjectMessage)
      && AtLeastOnce(c, reason) == FailNull(NullSubjectMessage)
      && AtLeastTwice(c, reason) == FailNull(NullSubjectMessage)
      && AtMost(c, n, reason) == FailNull(NullSubjectMessage)
      && AtMostOnce(c, reason) == FailNull(NullSubjectMessage)
      && AtMostTwice(c, reason) == FailNull(NullSubjectMessage)
  {
  }

  /** The state holding one recorded call `WriteAllText("foo", "bar")`. */
  function WriteAllTextOnce(): MethodAssertions<string>
  {
    Of("WriteAllText", [MethodStatistic("WriteAllText", [Some("foo"), Some("bar")])])
  }

  /**
   * After one call `WriteAllText("foo", "bar")`, the first parameter "foo"
   * counts once and "bar" never; the second parameter "bar" counts once.
   */
  lemma WriteAllTextCounts()
    ensures WithFirstParameterValue(WriteAllTextOnce(), Some("foo")).GetCount() == 1
    ensures WithFirstParameterValue(WriteAllTextOnce(), Some("bar")).GetCount() == 0
    ensures WithSecondParameterValue(WriteAllTextOnce(), Some("bar")).GetCount() == 1
  {
    var s := WriteAllTextOnce();
    var call := s.methods[0];
    assert s.methods == [call];
    var foo := WithFirstParameterValue(s, Some("foo"));
    assert call in foo.methods;
    assert IsSubsequence(foo.methods, s.methods);
    assert |foo.methods| <= 1;
    var bar := WithFirstParameterValue(s, Some("bar"));
    assert call !in bar.methods;
    var second := WithSecondParameterValue(s, Some("bar"));
    assert call in second.methods;
    assert IsSubsequence(second.methods, s.methods);
    assert |second.methods| <= 1;
  }

  /**
   * Narrowed to first parameter "foo", `Never()` fails with "Expected method
   * `WriteAllText` to never be called{reason}, but it was once.".
   */
  lemma WriteAllTextNeverFails(reason: string)
    ensures Never(WithFirstParameterValue(WriteAllTextOnce(), Some("foo")).AsCountSubject(), reason)
         == FailCount("Expected method `WriteAllText` to never be called" + reason + ", but it was once.")
  {
    assert "Expected " + Method.TypeName() + " `" + "WriteAllText" + "` to " + ("never be " + Method.Verb())
        == "Expected method `WriteAllText` to never be called" by {
      assert "never be " + "called" == "never be called";
      assert "Expected " + "method" + " `" == "Expected method `";
      assert "Expected method `" + "WriteAllText" == "Expected method `WriteAllText";
      assert "Expected method `WriteAllText" + "` to " == "Expected method `WriteAllText` to ";
      assert "Expected method `WriteAllText` to " + "never be called" == "Expected method `WriteAllText` to never be called";
    }
    WriteAllTextCounts();
    var c := WithFirstParameterValue(WriteAllTextOnce(), Some("foo")).AsCountSubject();
    assert c == CountSubject(false, "WriteAllText", Method, 1);
    NeverOnceMessage("WriteAllText", Method, reason);
  }

  /** Narrowed to first parameter "bar", `Never()` passes. */
  lemma WriteAllTextNeverPasses(reason: string)
    ensures Never(WithFirstParameterValue(WriteAllTextOnce(), Some("bar")).AsCountSubject(), reason) == Pass
  {
    WriteAllTextCounts();
  }
}

=== FILE: statistic_property_assertions.dfy ===
/**
 * The property-access statistics state
 * (Source/Testably.Abstractions.FluentAssertions/StatisticPropertyAssertions.cs):
 * the accesses of one named property, with no narrowing of its own.
 */
module StatisticPropertyAssertions {
  import opened Statistics
  import opened StatisticAssertionsCount

  /** The retained accesses of the property named `statisticName`. */
  datatype PropertyAssertions = PropertyAssertions(isSubjectNull: bool, statisticName: string, properties: seq<PropertyStatistic>)
  {
    /** `GetCount()`: the number of retained accesses. */
    function GetCount(): nat
    {
      |properties|
    }

    /** What the terminal comparisons read: kind "property", verb "accessed". */
    function AsCountSubject(): (c: CountSubject)
      ensures c.kind.TypeName() == "property" && c.kind.Verb() == "accessed"
      ensures c.isSubjectNull == isSubjectNull && c.statisticName == statisticName
      ensures c.count == |properties|
    {
      CountSubject(isSubjectNull, statisticName, Property, GetCount())
    }
  }

  /** The constructor for a null subject: flagged, with no accesses. */
  function NullSubject(propertyName: string): (r: PropertyAssertions)
    ensures r.isSubjectNull && r.statisticName == propertyName && r.properties == []
    ensures r.GetCount() == 0
  {
    PropertyAssertions(true, propertyName, [])
  }

  /** The constructor over given accesses: not flagged, the accesses kept as they are. */
  function Of(propertyName: string, properties: seq<PropertyStatistic>): (r: PropertyAssertions)
    ensures !r.isSubjectNull && r.statisticName == propertyName && r.properties == properties
    ensures r.GetCount() == |properties|
  {
    PropertyAssertions(false, propertyName, properties)
  }

  /**
   * A null-subject state counts 0, yet every terminal comparison on it fails
   * with the null-subject message, whatever the threshold and the reason.
   */
  lemma NullSubjectFailsEveryTerminal(propertyName: string, n: int, reason: string)
    ensures NullSubject(propertyName).GetCount() == 0
    ensures var c := NullSubject(propertyName).AsCountSubject();
      && Never(c, reason) == FailNull(NullSubjectMessage)
      && Once(c, reason) == FailNull(NullSubjectMessage)
      && Twice(c, reason) == FailNull(NullSubjectMessage)
      && Exactly(c, n, reason) == FailNull(NullSubjectMessage)
      && AtLeast(c, n, reason) == FailNull(NullSubjectMessage)
      && AtLeastOnce(c, reason) == FailNull(NullSubjectMessage)
      && AtLeastTwice(c, reason) == FailNull(NullSubjectMessage)
      && AtMost(c, n, reason) == FailNull(NullSubjectMessage)
      && AtMostOnce(c, reason) == FailNull(NullSubjectMessage)
      && AtMostTwice(c, reason) == FailNull(NullSubjectMessage)
  {
  }
}

=== FILE: statistics.dfy ===
/**
 * The records produced by the call-recording collaborator and consumed, read
 * only, by the statistics assertions: one record per observed method call or
 * property access, and the statistics object that holds them.
 */
module Statistics {
  import opened Wrappers

  /**
   * One recorded method call: the method's name and the captured parameter
   * values in declaration order; `None` is a captured `null`. The value type
   * `T` stands for the dynamically typed payload.
   */
  datatype MethodStatistic<T> = MethodStatistic(name: string, parameters: seq<Option<T>>)

  /** One recorded property access. */
  datatype PropertyStatistic = PropertyStatistic(name: string)

  /** The recorded calls and accesses of one tracked interface, in recording order. */
  datatype StatisticsRecord<T> = StatisticsRecord(methods: seq<MethodStatistic<T>>, properties: seq<PropertyStatistic>)
}

=== FILE: wildcard_match.dfy ===
/**
 * A wildcard pattern compiled into a whole-string predicate
 * (Source/Testably.Abstractions.FluentAssertions/Match.cs).
 *
 * The source escapes every regular-expression metacharacter of the pattern,
 * turns the escaped `?` into `.` and the escaped `*` into `.*`, anchors the
 * result as `^…$` and hands it to the .NET regular-expression engine. This
 * module states the meaning of that expression directly:
 *  - `?` consumes exactly one character (one Unicode scalar value here; one
 *    UTF-16 code unit in .NET) and `*` any run of characters, but
 *    neither consumes a line feed, because `.` does not match `'\n'`;
 *  - every other pattern character matches only itself (or, ignoring case,
 *    a character with the same case fold);
 *  - `^` anchors at the start, and `$` at the end of the value or just before
 *    a line feed that ends it.
 */
module WildcardMatch {
  import opened Wrappers

  const LineFeed: char := '\n'

  /** ASCII case fold: upper-case letters map to lower case, the rest to themselves. */
  function FoldCase(c: char): (f: char)
    ensures !('A' <= f <= 'Z')
    ensures 'A' <= c <= 'Z' ==> 'a' <= f <= 'z' && f as int - 'a' as int == c as int - 'A' as int
    ensures !('A' <= c <= 'Z') ==> f == c
  {
    if 'A' <= c <= 'Z' then (c as int + 32) as char else c
  }

  /** Whether the literal pattern character `p` matches the value character `c`. */
  predicate LiteralMatches(p: char, c: char, ignoreCase: bool)
    ensures !ignoreCase ==> (LiteralMatches(p, c, ignoreCase) <==> p == c)
    ensures ignoreCase ==> (LiteralMatches(p, c, ignoreCase) <==> FoldCase(p) == FoldCase(c))
  {
    p == c || (ignoreCase && FoldCase(p) == FoldCase(c))
  }

  /**
   * Whether the whole of `s` is described by the pattern `p`: the regular
   * expression between `^` and `$` matches exactly `s`.
   */
  predicate GlobMatch(p: string, s: string, ignoreCase: bool)
    decreases |p|, |s|
  {
    if p == [] then s == []
    else if p[0] == '*' then
      GlobMatch(p[1..], s, ignoreCase)
      || (s != [] && s[0] != LineFeed && GlobMatch(p, s[1..], ignoreCase))
    else if p[0] == '?' then
      s != [] && s[0] != LineFeed && GlobMatch(p[1..], s[1..], ignoreCase)
    else
      s != [] && LiteralMatches(p[0], s[0], ignoreCase) && GlobMatch(p[1..], s[1..], ignoreCase)
  }

  /**
   * The `^…$` anchoring of the .NET engine: the value matches as a whole, or
   * everything but a single trailing line feed matches.
   */
  predicate AnchoredMatch(p: string, s: string, ignoreCase: bool)
  {
    GlobMatch(p, s, ignoreCase)
    || (s != [] && s[|s| - 1] == LineFeed && GlobMatch(p, s[..|s| - 1], ignoreCase))
  }

  /** A compiled wildcard pattern: the original text and the case flag. */
  datatype Match = WildcardPattern(originalPattern: string, ignoreCase: bool)
  {
    /** `null` never matches; any other value is matched as a whole. */
    predicate Matches(value: Option<string>)
      ensures Matches(value) ==> value.Some?
    {
      match value
      case None => false
      case Some(s) => AnchoredMatch(originalPattern, s, ignoreCase)
    }

    /** The pattern as the caller wrote it, not its translated form. */
    function ToString(): string
    {
      originalPattern
    }
  }

  /** `Match.Wildcard(pattern, ignoreCase)`. */
  function Wildcard(pattern: string, ignoreCase: bool): (m: Match)
    ensures m.ToString() == pattern
    ensures m.ignoreCase == ignoreCase
  {
    WildcardPattern(pattern, ignoreCase)
  }

  /** The implicit conversion from a nullable string: `null` becomes the empty pattern. */
  function FromString(pattern: Option<string>): (m: Match)
    ensures pattern.None? ==> m == Wildcard("", false)
    ensures pattern.Some? ==> m == Wildcard(pattern.value, false)
  {
    Wildcard(match pattern case None => "" case Some(p) => p, false)
  }

  // ---------------------------------------------------------------------
  // Reference semantics: a match is a split of the value into one chunk per
  // pattern character, each chunk admitted by its pattern character.
  // ---------------------------------------------------------------------

  /** The chunk of the value that pattern character `p` may consume. */
  predicate ChunkAdmitted(p: char, chunk: string, ignoreCase: bool)
  {
    if p == '*' then LineFeed !in chunk
    else if p == '?' then |chunk| == 1 && chunk[0] != LineFeed
    else |chunk| == 1 && LiteralMatches(p, chunk[0], ignoreCase)
  }

  /** `chunks` assigns to each character of `p` a chunk it admits. */
  ghost predicate Admits(p: string, chunks: seq<string>, ignoreCase: bool)
  {
    |chunks| == |p| && forall i :: 0 <= i < |p| ==> ChunkAdmitted(p[i], chunks[i], ignoreCase)
  }

  /** The chunks put back together. */
  function Concat(chunks: seq<string>): string
  {
    if chunks == [] then [] else chunks[0] + Concat(chunks[1..])
  }

  /** Every value `GlobMatch` accepts splits into chunks the pattern admits. */
  lemma {:induction false} GlobMatchSound(p: string, s: string, ignoreCase: bool)
    requires GlobMatch(p, s, ignoreCase)
    ensures exists chunks :: Admits(p, chunks, ignoreCase) && Concat(chunks) == s
    decreases |p|, |s|
  {
    var chunks := SplitMatch(p, s, ignoreCase);
  }

  /** The split behind `GlobMatchSound`, built along the recursion of `GlobMatch`. */
  lemma {:induction false} SplitMatch(p: string, s: string, ignoreCase: bool) returns (chunks: seq<string>)
    requires GlobMatch(p, s, ignoreCase)
    ensures Admits(p, chunks, ignoreCase) && Concat(chunks) == s
    decreases |p|, |s|
  {
    if p == [] {
      chunks := [];
    } else if p[0] == '*' {
      if GlobMatch(p[1..], s, ignoreCase) {
        var rest := SplitMatch(p[1..], s, ignoreCase);
        chunks := [[]] + rest;
        assert chunks[1..] == rest;
      } else {
        var longer := SplitMatch(p, s[1..], ignoreCase);
        chunks := [[s[0]] + longer[0]] + longer[1..];
        assert chunks[1..] == longer[1..];
        assert LineFeed !in chunks[0];
        assert Concat(longer) == longer[0] + Concat(longer[1..]);
        assert s == [s[0]] + s[1..];
      }
    } else {
      var rest := SplitMatch(p[1..], s[1..], ignoreCase);
      chunks := [[s[0]]] + rest;
      assert chunks[1..] == rest;
      assert s == [s[0]] + s[1..];
    }
    forall i | 0 <= i < |p| ensures ChunkAdmitted(p[i], chunks[i], ignoreCase) {
      if i > 0 {
        assert p[i] == p[1..][i - 1];
      }
    }
  }

  /** Every split of a value into admitted chunks is accepted by `GlobMatch`. */
  lemma {:induction false} GlobMatchComplete(p: string, chunks: seq<string>, ignoreCase: bool)
    requires Admits(p, chunks, ignoreCase)
    ensures GlobMatch(p, Concat(chunks), ignoreCase)
    decreases |p|
  {
    if p != [] {
      assert Admits(p[1..], chunks[1..], ignoreCase) by {
        forall i | 0 <= i < |p| - 1 ensures ChunkAdmitted(p[1..][i], chunks[1..][i], ignoreCase) {
          assert ChunkAdmitted(p[i + 1], chunks[i + 1], ignoreCase);
        }
      }
      GlobMatchComplete(p[1..], chunks[1..], ignoreCase);
      assert ChunkAdmitted(p[0], chunks[0], ignoreCase);
      if p[0] == '*' {
        StarConsumes(p, chunks[0], Concat(chunks[1..]), ignoreCase);
      } else {
        assert Concat(chunks) == [chunks[0][0]] + Concat(chunks[1..]);
      }
    }
  }

  /** A leading `*` may consume any line-feed-free prefix. */
  lemma {:induction false} StarConsumes(p: string, run: string, rest: string, ignoreCase: bool)
    requires p != [] && p[0] == '*' && LineFeed !in run
    requires GlobMatch(p[1..], rest, ignoreCase)
    ensures GlobMatch(p, run + rest, ignoreCase)
    decreases |run|
  {
    if run == [] {
      assert run + rest == rest;
    } else {
      StarConsumes(p, run[1..], rest, ignoreCase);
      assert (run + rest)[1..] == run[1..] + rest;
    }
  }

  // ---------------------------------------------------------------------
  // Properties of the matcher
  // ---------------------------------------------------------------------

  /** `p` contains neither wildcard. */
  predicate NoWildcards(p: string)
  {
    '*' !in p && '?' !in p
  }

  /**
   * Escaping makes every non-wildcard character literal, including regular
   * expression metacharacters: a wildcard-free pattern matches, case
   * sensitively, exactly the value equal to it.
   */
  lemma {:induction false} LiteralPatternMatchesOnlyItself(p: string, s: string)
    requires NoWildcards(p)
    ensures GlobMatch(p, s, false) <==> s == p
    decreases |p|
  {
    if p != [] {
      assert p[0] != '*' && p[0] != '?';
      assert NoWildcards(p[1..]) by {
        assert forall c :: c in p[1..] ==> c in p;
      }
      if s != [] {
        LiteralPatternMatchesOnlyItself(p[1..], s[1..]);
        assert s == [s[0]] + s[1..];
        assert p == [p[0]] + p[1..];
      }
    }
  }

  /** `s` has the length of `p` and, position by position, the same case folds. */
  predicate SameFolds(p: string, s: string)
  {
    |s| == |p| && forall i :: 0 <= i < |p| ==> FoldCase(p[i]) == FoldCase(s[i])
  }

  /**
   * Ignoring case, a wildcard-free pattern matches exactly the values of its
   * length whose characters have, position by position, the same case fold.
   */
  lemma {:induction false} LiteralPatternIgnoringCase(p: string, s: string)
    requires NoWildcards(p)
    ensures GlobMatch(p, s, true) <==> SameFolds(p, s)
    decreases |p|
  {
    if p != [] {
      assert p[0] != '*' && p[0] != '?';
      assert NoWildcards(p[1..]) by {
        assert forall c :: c in p[1..] ==> c in p;
      }
      if s != [] {
        LiteralPatternIgnoringCase(p[1..], s[1..]);
        if |s| == |p| && forall i :: 0 <= i < |p| ==> FoldCase(p[i]) == FoldCase(s[i]) {
          assert FoldCase(p[0]) == FoldCase(s[0]);
          forall i | 0 <= i < |p[1..]| ensures FoldCase(p[1..][i]) == FoldCase(s[1..][i]) {
            assert p[1..][i] == p[i + 1] && s[1..][i] == s[i + 1];
          }
        }
        if GlobMatch(p, s, true) {
          forall i | 0 <= i < |p| ensures FoldCase(p[i]) == FoldCase(s[i]) {
            if i > 0 {
              assert p[1..][i - 1] == p[i] && s[1..][i - 1] == s[i];
            }
          }
        }
      }
    }
  }

  /**
   * The same through `Matches`, with the engine's anchoring: a wildcard-free
   * pattern accepts the value equal to it and that value followed by one line
   * feed, and nothing else; so "Foo" rejects "xFoo".
   */
  lemma LiteralWildcardMatches(p: string, s: string)
    requires NoWildcards(p)
    ensures Wildcard(p, false).Matches(Some(s)) <==> s == p || s == p + [LineFeed]
  {
    LiteralPatternMatchesOnlyItself(p, s);
    if s != [] {
      LiteralPatternMatchesOnlyItself(p, s[..|s| - 1]);
      if s == p + [LineFeed] {
        assert s[..|s| - 1] == p;
      }
      if s[|s| - 1] == LineFeed && s[..|s| - 1] == p {
        assert s == p + [LineFeed];
      }
    }
  }

  /**
   * The same through `Matches`: ignoring case, a wildcard-free pattern accepts
   * the values with its case folds, alone or followed by one line feed.
   */
  lemma LiteralWildcardMatchesIgnoringCase(p: string, s: string)
    requires NoWildcards(p)
    ensures Wildcard(p, true).Matches(Some(s))
        <==> SameFolds(p, s) || (s != [] && s[|s| - 1] == LineFeed && SameFolds(p, s[..|s| - 1]))
  {
    LiteralPatternIgnoringCase(p, s);
    if s != [] {
      LiteralPatternIgnoringCase(p, s[..|s| - 1]);
    }
  }

  /**
   * Without `*`, every pattern character consumes exactly one character: `?`
   * stands for one character, never for none or several.
   */
  lemma {:induction false} StarFreeMatchHasPatternLength(p: string, s: string, ignoreCase: bool)
    requires '*' !in p && GlobMatch(p, s, ignoreCase)
    ensures |s| == |p|
    decreases |p|
  {
    if p != [] {
      assert '*' !in p[1..] by {
        assert forall c :: c in p[1..] ==> c in p;
      }
      StarFreeMatchHasPatternLength(p[1..], s[1..], ignoreCase);
    }
  }

  /** The pattern `*` matches exactly the values without a line feed. */
  lemma {:induction false} StarMatchesLineFeedFree(s: string, ignoreCase: bool)
    ensures GlobMatch("*", s, ignoreCase) <==> LineFeed !in s
    decreases |s|
  {
    if LineFeed !in s {
      assert GlobMatch("*"[1..], [], ignoreCase);
      StarConsumes("*", s, [], ignoreCase);
      assert s + [] == s;
    }
    if s != [] {
      StarMatchesLineFeedFree(s[1..], ignoreCase);
      assert s == [s[0]] + s[1..];
      assert !GlobMatch("*"[1..], s, ignoreCase);
    }
  }

  /**
   * Through `Matches`, `*` accepts every non-null value whose only line feed,
   * if any, is its last character; in particular every value without one.
   */
  lemma StarWildcardMatches(s: string, ignoreCase: bool)
    ensures Wildcard("*", ignoreCase).Matches(Some(s))
            <==> LineFeed !in s || (s[|s| - 1] == LineFeed && LineFeed !in s[..|s| - 1])
  {
    StarMatchesLineFeedFree(s, ignoreCase);
    if s != [] {
      StarMatchesLineFeedFree(s[..|s| - 1], ignoreCase);
    }
  }

  /** Ignoring case only widens what a pattern accepts. */
  lemma {:induction false} IgnoreCaseWidens(p: string, s: string)
    requires GlobMatch(p, s, false)
    ensures GlobMatch(p, s, true)
    decreases |p|, |s|
  {
    if p == [] {
    } else if p[0] == '*' {
      if GlobMatch(p[1..], s, false) {
        IgnoreCaseWidens(p[1..], s);
      } else {
        IgnoreCaseWidens(p, s[1..]);
      }
    } else {
      IgnoreCaseWidens(p[1..], s[1..]);
    }
  }

  /** "foo" rejects "FOO" case sensitively and accepts it when ignoring case. */
  lemma IgnoreCaseExample()
    ensures !Wildcard("foo", false).Matches(Some("FOO"))
    ensures Wildcard("foo", true).Matches(Some("FOO"))
  {
    LiteralWildcardMatches("foo", "FOO");
    assert "FOO" != "foo" + [LineFeed];
    assert GlobMatch("foo"[1..][1..][1..], "FOO"[1..][1..][1..], true);
  }

  /** Converting `null` gives the empty pattern, which matches "" and not " ". */
  lemma NullConversionExample()
    ensures FromString(None) == Wildcard("", false)
    ensures FromString(None).Matches(Some(""))
    ensures !FromString(None).Matches(Some(" "))
    ensures FromString(None).ToString() == ""
  {
  }

  /** `null` is rejected by every pattern, even `*`, whatever the case flag. */
  lemma NullNeverMatches(pattern: string, ignoreCase: bool)
    ensures !Wildcard(pattern, ignoreCase).Matches(None)
    ensures !Wildcard("*", ignoreCase).Matches(None)
  {
  }

  /** The wildcard-free rows of the table the source's tests check. */
  lemma LiteralExamples()
    ensures Wildcard("Foo", false).Matches(Some("Foo"))
    ensures !Wildcard("Foo", false).Matches(Some("xFoo"))
    ensures !Wildcard("Foo", false).Matches(Some("xFoo.Bar"))
  {
    LiteralWildcardMatches("Foo", "Foo");
    LiteralWildcardMatches("Foo", "xFoo");
    LiteralWildcardMatches("Foo", "xFoo.Bar");
  }

  /** `?` consumes exactly one character: "Foo?Bar" accepts "Foo.Bar", "Foo?r" does not. */
  lemma QuestionMarkExamples()
    ensures Wildcard("Foo?Bar", false).Matches(Some("Foo.Bar"))
    ensures !Wildcard("Foo?r", false).Matches(Some("Foo.Bar"))
  {
    var chunks := ["F", "o", "o", ".", "B", "a", "r"];
    assert Admits("Foo?Bar", chunks, false);
    assert Concat(chunks) == "Foo.Bar";
    GlobMatchComplete("Foo?Bar", chunks, false);
    if GlobMatch("Foo?r", "Foo.Bar", false) {
      StarFreeMatchHasPatternLength("Foo?r", "Foo.Bar", false);
    }
  }

  /** `*` consumes any run: "*", "Foo*" and "Foo*r" all accept "Foo.Bar". */
  lemma StarExamples()
    ensures Wildcard("*", false).Matches(Some("Foo.Bar"))
    ensures Wildcard("Foo*", false).Matches(Some("Foo.Bar"))
    ensures Wildcard("Foo*r", false).Matches(Some("Foo.Bar"))
  {
    StarWildcardMatches("Foo.Bar", false);
    StarMatchesLineFeedFree(".Bar", false);
    var p := "Foo*";
    assert GlobMatch(p[3..], ".Bar", false);
    assert GlobMatch(p[2..], "o.Bar", false);
    assert GlobMatch(p[1..], "oo.Bar", false);
    p := "Foo*r";
    assert GlobMatch(p[4..], "r", false);
    assert GlobMatch(p[3..], ".Bar", false) by {
      StarConsumes(p[3..], ".Ba", "r", false);
      assert ".Ba" + "r" == ".Bar";
    }
    assert GlobMatch(p[2..], "o.Bar", false);
    assert GlobMatch(p[1..], "oo.Bar", false);
  }

  /** Regular-expression metacharacters in the pattern are plain characters. */
  lemma MetacharacterExamples()
    ensures Wildcard("a.b", false).Matches(Some("a.b"))
    ensures !Wildcard("a.b", false).Matches(Some("axb"))
    ensures Wildcard("($\\)", false).Matches(Some("($\\)"))
    ensures !Wildcard("^a$", false).Matches(Some("a"))
  {
    LiteralWildcardMatches("a.b", "a.b");
    LiteralWildcardMatches("a.b", "axb");
    LiteralWildcardMatches("($\\)", "($\\)");
    LiteralWildcardMatches("^a$", "a");
  }
}

=== FILE: wrappers.dfy ===
/** The nullable-reference idiom of the source: `None` stands for C# `null`. */
module Wrappers {

  datatype Option<+T> = None | Some(value: T)
}
